=== FILE: README.md ===
# Chat server model

A Dafny model of the core of a small chat server. The model has three layers.

- **Messages and codecs.** There are five message kinds: IDENTIFY, SEND_MESSAGE, RECEIVE_MESSAGE (a `ChatMessage`), REQUEST_HISTORY and RECEIVE_HISTORY. Each kind has two codecs.
  - A structured codec to and from a `DataNode` document, which JSON frames carry.
  - A binary codec built from varints and length-prefixed strings.
- **Connections.** This layer covers:
  - the mode handshake (`BINARY` or `JSON`);
  - the frame each mode sends;
  - the per-kind callback table, filled with `emplace`;
  - `poll`, which reads one frame, validates it, decodes it and picks the callback to run.
- **The chat hub.** The server keeps a log of chat messages keyed by a 64-bit id counter, plus the table of connected users.
  - Every new message is stamped with the next id, forwarded to every connected user and stored.
  - Each connection registers three callbacks: rename, post, and request history.
  - The per-connection serve loop announces the connection, polls until the connection ends, then removes the user and announces the disconnection.

Files, one module each:

| file | module | models |
|---|---|---|
| `wrappers.dfy` | `Wrappers` | `Option` with the `:-` failure propagation |
| `scalars.dfy` | `Scalars` | bytes, `uint64_t`/`int64_t` and the casts between them, wrapping increment and decrement, `emplace` |
| `binary_primitives.dfy` | `BinaryPrimitives` | `readVarUint`/`writeVarUint`/`readString`/`writeString` |
| `message_type.dfy` | `MessageTypes` | `MessageType` with `toString`/`fromString` and its wire number |
| `messages.dfy` | `Messages` | the five message structs and `ChatMessage::Category` |
| `data_node.dfy` | `DataNodes` | the `DataNode` tree and its accessors |
| `structured_codec.dfy` | `StructuredCodec` | ENCODER/DECODER specialisations |
| `binary_codec.dfy` | `BinaryCodec` | READER/WRITER specialisations, `serialize`/`deserialize` |
| `network.dfy` | `Network` | `readline`, both `Connection` constructors, `send`, `on`, `poll` in both modes |
| `server.dfy` | `ChatServer` | `User`, `Server` and the `serve` loop with its callbacks |

Modelling choices:

- **Bytes.** A C++ `std::string` is modelled as `Bytes`, a sequence of the `byte` newtype (0..255). String literals are ASCII and are converted with `Str`.
- **Binary wire format.** `scrump/binary.h` is not part of this model. Its wire format is assumed to be unsigned LEB128, as in section 7.6 of DWARF version 5.
  - A string is its length as a varint, followed by its bytes.
  - Reading fails when the stream ends early, or when a varint is wider than 64 bits.
  - `deserialize` is assumed to ignore bytes left after the message.
- **Message kinds.** `message_type.h` is not part of this model.
  - The kinds are numbered 0 to 4 in declaration order.
  - Their names are the enumerators' own spelling.
  - `fromString` is the partial inverse of `toString`.
- **Category values.** The binary reader casts any number to `ChatMessage::Category`. A number other than 0 or 1 is therefore modelled as `Undeclared(code)`, which keeps the whole 64-bit number. The narrowing a compiler would apply is not modelled; see "## Left out". The structured encoder's `default: throw` then becomes reachable, and the model returns no document in that case.
- **JSON text.** The JSON text library (`scrump/json.h`) is not part of this model. A connection is given a `JsonText` value holding `parse` and `stringify`.
  - The JSON round-trip lemmas assume `FaithfulJson`: stringified text parses back, and contains no newline.
- **Callbacks.** A registered callback is a token in the connection's table.
  - `poll` decodes the frame exactly as the registered wrapper does, and reports `Dispatched(token, message)`.
  - The server then runs the callback that the token names.
  - Any exception `poll` would raise ends the connection. This is reported as `Severed` or `BadMessage`. `Severed` means the frame header could not be read: the transport ran out, or, in binary mode, the kind number or the payload length is not a varint of at most 64 bits. `BadMessage` means the frame was rejected or its payload failed to decode.
- **Transports.** A transport is modelled as byte sequences.
  - `input` holds what the peer will send.
  - `output` holds everything written to the peer.
  - A message the server sends to a user is therefore appended, as a frame, to that user's connection `output`.

## Model

| member | source | states |
|---|---|---|
| Scalars.ToInt64 | src/network.cc:62 | the `static_cast<int64_t>` of an id keeps its value modulo 2^64 and is negative exactly for ids of 2^63 and above |
| Scalars.ToUint64 | src/network.cc:78 | storing an `int64_t` into a `uint64_t` field keeps the value modulo 2^64 |
| Scalars.Increment | src/server.cc:89 | `next_id_++` adds one modulo 2^64, and grows until the counter wraps |
| Scalars.Emplace | src/network.h:87 | `emplace` inserts only under an absent key: an existing entry stays, and no other key is touched |
| BinaryPrimitives.WriteVarUint | src/network.h:80 | a varint has at least one byte |
| BinaryPrimitives.VarUintEncodingShape | src/network.h:80 | every varint byte but the last has the continuation bit, and the encoding has one byte per started group of seven bits |
| BinaryPrimitives.ReadVarNat | src/network.cc:93 | reading a varint consumes at least one byte |
| BinaryPrimitives.ReadString | src/network.cc:31 | reading a string consumes at least one byte |
| BinaryPrimitives.VarNatRoundTrip | src/network.cc:93 | a written varint reads back to its value and leaves the bytes after it |
| BinaryPrimitives.VarUintRoundTrip | src/network.cc:125-126 | every `uint64_t` survives `writeVarUint` then `readVarUint` |
| BinaryPrimitives.StringRoundTrip | src/network.cc:31-35 | `readString(writeString(s))` gives back `s` and leaves the bytes after it |
| MessageTypes.FromString | src/network.cc:224 | `fromString` accepts exactly the five kind names, each mapping to the kind whose name it is |
| MessageTypes.FromToString | src/network.cc:246 | the name `send` writes into "type" is read back as the same kind |
| MessageTypes.Code | src/network.h:80 | a kind's wire number is below 5 |
| MessageTypes.FromCode | src/network.cc:173 | a wire number names a kind exactly when it is below 5, and then names the kind with that number |
| MessageTypes.FromToCode | src/network.cc:173 | the number `send` writes is read back as the same kind |
| Messages.CategoryFromCode | src/network.h:48-51 | CHAT_MESSAGE is exactly 0 and NOTICE exactly 1; every other number becomes an undeclared value that remembers the number (narrowing not modelled, see Left out) |
| Messages.CategoryCodeRoundTrip | src/network.cc:94 | every category value survives being written as its number and cast back |
| DataNodes.Field | src/network.cc:27 | a field lookup succeeds exactly on an object holding the key, and returns the node stored under it |
| DataNodes.StringField | src/network.cc:27 | `asObject()[key].asString()` succeeds exactly when the field exists and holds a string, and returns that string |
| DataNodes.Int64Field | src/network.cc:78 | `asObject()[key].asInt64()` succeeds exactly when the field exists and holds an integer, and returns it |
| StructuredCodec.ChatMessageDocument | src/network.cc:56-74 | an encoded ChatMessage has a "sender_name" key exactly when it is a CHAT_MESSAGE; its "category" is "CHAT_MESSAGE" or "NOTICE"; an undeclared category throws |
| StructuredCodec.DecodeRejectsUnknownCategory | src/network.cc:80-88 | any category string other than the two names makes decoding fail |
| StructuredCodec.DecodeRequiresSenderForChat | src/network.cc:81-83 | a CHAT_MESSAGE without a string "sender_name" fails to decode |
| StructuredCodec.DecodeNoticeIgnoresSender | src/network.cc:84-85 | decoding a NOTICE leaves the target's sender name as it was |
| StructuredCodec.ChatMessageRoundTrip | src/network.cc:56-90 | decoding an encoded ChatMessage restores it, except that a NOTICE keeps the target's sender name |
| StructuredCodec.NoticeSenderNotCarried | src/network.cc:66-70 | a NOTICE decodes with an empty sender, whatever sender it was encoded with |
| StructuredCodec.EncodeEntries | src/network.cc:135-140 | the history array has one entry per message |
| StructuredCodec.DecodeEntries | src/network.cc:142-150 | the decoded history has one message per array entry |
| StructuredCodec.EntriesRoundTrip | src/network.cc:135-150 | an encoded history decodes to the same messages in the same order |
| StructuredCodec.Decode | src/network.h:113-118 | a successful decode produces a message of the requested kind |
| StructuredCodec.StructuredRoundTrip | src/network.cc:22-150 | `decode(encode(m)) == m` for every kind, including ids of 2^63 and above, whenever notices carry no sender |
| StructuredCodec.EncodeReceiveHistory | src/network.cc:135-140 | the push_back loop builds the array that the entry-wise encoding defines, and throws where that encoding throws |
| StructuredCodec.EntriesFailurePersists | src/network.cc:137-138 | once an entry fails to encode, the whole history fails |
| StructuredCodec.DecodeReceiveHistory | src/network.cc:142-150 | after clearing the target, the decode loop yields the entry-wise decoding of the array, and fails exactly when it fails |
| StructuredCodec.DecodeFailurePersists | src/network.cc:145-148 | once an entry fails to decode, the whole history fails |
| StructuredCodec.EncodeMessage | src/network.h:107 | `network::encode` of every kind, with the history loop run as written |
| StructuredCodec.DecodeMessage | src/network.h:115-116 | `network::decode` of every kind, with the history loop run as written |
| BinaryCodec.ReadChatMessage | src/network.cc:92-101 | reading a ChatMessage consumes at least one byte |
| BinaryCodec.ReadChatMessages | src/network.cc:152-159 | reading `n` entries yields exactly `n` messages |
| BinaryCodec.Read | src/network.cc:30-159 | a successful read produces a message of the requested kind |
| BinaryCodec.Deserialize | src/network.h:88 | a deserialised payload is of the requested kind |
| BinaryCodec.ChatMessageRoundTrip | src/network.cc:92-109 | a written ChatMessage reads back whole when it is a CHAT_MESSAGE, or a notice with an empty sender |
| BinaryCodec.NoticeSenderNotCarried | src/network.cc:97-99 | a non-chat ChatMessage reads back with an empty sender, whatever sender it had |
| BinaryCodec.ChatMessagesRoundTrip | src/network.cc:152-164 | written entries read back as the same list in the same order |
| BinaryCodec.WriteChatMessagesSnoc | src/network.cc:163 | writing one more entry appends exactly its bytes |
| BinaryCodec.WriteReceiveHistory | src/network.cc:161-164 | the writer loop emits the count and then every entry in order |
| BinaryCodec.ReadReceiveHistory | src/network.cc:152-159 | the reader loop appends the entries it reads to whatever the target already held, and fails exactly when a read fails |
| BinaryCodec.SerializeMessage | src/network.h:81 | `serialize` of every kind, with the history loop run as written |
| BinaryCodec.DeserializeMessage | src/network.h:88 | `deserialize` of every kind, with the history loop run as written |
| BinaryCodec.RequestHistoryRoundTrip | src/network.cc:124-132 | both REQUEST_HISTORY counters read back unchanged |
| BinaryCodec.ReceiveHistoryRoundTrip | src/network.cc:152-164 | the count-prefixed history reads back as the same list |
| BinaryCodec.BinaryRoundTrip | src/network.cc:30-164 | `read(write(m)) == m` for every kind, leaving the following bytes, whenever notices carry no sender and lengths fit 64 bits |
| BinaryCodec.DeserializeSerialize | src/network.h:81-88 | `deserialize(serialize(m)) == m` under the same conditions |
| Network.SplitLine | src/network.cc:251-256 | a line is the bytes before the first newline; the rest of the stream follows that newline; without a newline the whole stream is an unterminated line |
| Network.SplitTerminatedLine | src/network.cc:201 | a newline-free text followed by a newline is read back as that text, terminated |
| Network.SplitUnterminatedLine | src/network.cc:202 | a stream without a newline is one unterminated line |
| Network.ReceiveLine | src/network.cc:197-202 | the byte-at-a-time loop reads the line that SplitLine defines, and notices whether the newline came |
| Network.ParseMode | src/network.cc:260-269 | the handshake accepts exactly "BINARY" and "JSON", each as its own mode |
| Network.HandshakeAgreement | src/network.cc:283-295 | the server reads from a client's preamble the mode the client chose, and leaves the following bytes to be polled |
| Network.Connection.constructor | src/network.cc:258-281 | a connection's mode is fixed at construction, and its callback table starts empty |
| Network.Connection.Client | src/network.cc:283-295 | the client writes the mode token followed by a newline, and nothing else |
| Network.Connection.Accept | src/network.cc:258-281 | the server constructor reads one line; an unknown mode is answered with "Invalid connection type." and yields no connection |
| Network.Connection.Send | src/network.h:143-150 | `send` appends one frame of the connection's own mode, and writes nothing when encoding throws |
| Network.Connection.On | src/network.h:152-159 | `on` emplaces into the mode's table: the first callback for a kind stays, and other kinds keep theirs |
| Network.Connection.Poll | src/network.cc:304-310 | `poll` consumes one frame of the connection's mode and reports the outcome PollSpec defines |
| Network.BinaryFrameHeader | src/network.h:77-82 | a binary frame reads back as the kind's number followed by the serialised payload |
| Network.BinaryPollFrame | src/network.cc:169-186 | polling a binary frame dispatches its message to the callback registered for its kind, or drops it when there is none |
| Network.JsonPollFrame | src/network.cc:196-249 | polling a JSON frame dispatches its message to the callback registered for its kind, or drops it when there is none |
| Network.BadEnvelopeIsDiscarded | src/network.cc:209-229 | a line that does not parse, is not an object, lacks a string "type" naming a kind, or lacks "payload" ends the connection, and no callback runs |
| Network.UnterminatedLineSevers | src/network.cc:201-202 | a JSON line that the transport ends before its newline severs the connection |
| Network.UnregisteredKindIsDropped | src/network.cc:177-182 | in both modes, a well-formed frame of a kind with no callback is dropped without decoding, and polling goes on |
| Network.DispatchOnlyAfterDecode | src/network.h:87-89 | a dispatched message is the decoding of the payload of the frame just read: the deserialised payload string in binary mode, the envelope's "payload" in JSON mode; it goes to the callback registered for that frame's kind |
| Network.UndecodablePayloadIsBadMessage | src/network.h:114-118 | a well-formed frame of a registered kind whose payload does not decode ends the connection as a bad message, consuming the frame, and no callback runs |
| Network.PollConsumes | src/network.cc:169-242 | every poll that lets the connection go on consumes input |
| Network.PollTrace | src/server.cc:158-159 | polling until a poll throws yields a finite sequence of outcomes: every one but the last lets the connection go on, and the last ends it |
| ChatServer.LowerBound | src/server.cc:145 | `lower_bound` finds the least logged id not below the key, or the end when there is none |
| ChatServer.HistoryFromEntries | src/server.cc:147-151 | the history loop collects at most `num_messages` entries, all from the log, starting at the iterator |
| ChatServer.HistoryFromAscending | src/server.cc:150 | the collected ids strictly ascend |
| ChatServer.HistoryFromComplete | src/server.cc:147-151 | the loop skips no logged id between the first and last it collects, nor after the last when it stopped short |
| ChatServer.HistorySpec | src/server.cc:144-152 | the reply holds at most `num_messages` logged entries with ids from `start_id` on, in increasing order, with none skipped |
| ChatServer.DenseLowerBound | src/server.cc:145 | in a log of ids 0 .. c - 1, `lower_bound(k)` is k itself when k is below c, and the end otherwise |
| ChatServer.DenseHistoryFrom | src/server.cc:147-151 | in a log of ids 0 .. c - 1, the loop collects consecutive ids |
| ChatServer.DenseHistory | src/server.cc:144-152 | in a log of ids 0 .. c - 1, the reply is ids `start`, `start` + 1, ..., and holds min(n, c - start) of them |
| ChatServer.HistoryExample | src/server.cc:144-152 | with ids 0..9, start 3 and count 4 give ids 3, 4, 5, 6; start 20 gives an empty reply |
| ChatServer.StoreKeepsLogValid | src/server.cc:96 | storing with `emplace` keeps the log at ids 0 .. added - 1; the id is new before the counter wraps, and the log is unchanged after |
| ChatServer.EntriesEncode | src/network.cc:135-140 | a history of server-made messages always encodes |
| ChatServer.ServerFramesExist | src/network.cc:56-74 | messages and histories the server makes never make `send` throw |
| ChatServer.User.constructor | src/server.cc:31-32 | a new user is named by its peer address |
| ChatServer.Server.constructor | src/server.cc:49-53 | a new server has id counter 0, an empty log and no users |
| ChatServer.Server.Broadcast | src/server.cc:92-93 | every user present receives the message exactly once, as a frame of its own connection's mode |
| ChatServer.Server.AddMessage | src/server.cc:85-97 | the message is stamped with `next_id_`; the counter moves on by one; every user receives the message; the log holds ids 0 .. added - 1, gaining this one under its new id before the counter wraps; earlier entries are untouched |
| ChatServer.Server.Notify | src/server.cc:68-74 | `notify` adds a NOTICE with an empty sender and the given text |
| ChatServer.Server.Send | src/server.cc:76-83 | `send` adds a CHAT_MESSAGE with the given sender and text |
| ChatServer.Server.HandleIdentify | src/server.cc:112-124 | IDENTIFY replaces the display name and notifies "<old> is now known as <new>." |
| ChatServer.Server.HandleSendMessage | src/server.cc:126-137 | SEND_MESSAGE posts the text under the user's current display name |
| ChatServer.Server.CollectHistory | src/server.cc:144-151 | the iterator loop collects exactly the History the log defines |
| ChatServer.Server.HandleRequestHistory | src/server.cc:139-156 | the history reply goes to the requesting user alone, as one RECEIVE_HISTORY frame |
| ChatServer.Server.File | src/server.cc:107-110 | the user is filed under its address unless that address is already taken |
| ChatServer.Server.Connect | src/server.cc:101-110 | "<addr> has connected." is logged before the user is filed: every user already filed receives it as one frame and keeps its input and callbacks; the new user never receives it; the handshake, filing and callbacks follow |
| ChatServer.Server.Admit | src/server.cc:105-110 | the handshake builds the connection, the user is filed, and the three callbacks are registered |
| ChatServer.Server.Session | src/server.cc:158-159 | the loop's outcomes are exactly the PollTrace of the connection's input; each IDENTIFY or SEND_MESSAGE callback adds one log entry; the display name ends as the last IDENTIFY's name; no log entry is rewritten; every other user's connection keeps its input and callbacks |
| ChatServer.Server.PollOnce | src/server.cc:159 | one `poll` consumes the frame PollSpec reads and runs the callback for a dispatched message: a rename logs "<old> is now known as <new>." under `next_id_` and sets the display name, a post logs the text under the current name, a history request leaves the log alone and sends the requester one RECEIVE_HISTORY frame of the selected entries; the connection keeps its callbacks, and every other connection its input and callbacks |
| ChatServer.Server.Run | src/server.cc:112-156 | the callback for a dispatched message is the one registered for its kind: a rename or post has exactly the effect of `addMessage` with the rename notice or the posted text (stamped, logged, sent once to every user); a history request leaves the log and the counter alone and sends the requester one RECEIVE_HISTORY frame of the selected entries; no connection's input or callbacks change |
| ChatServer.Server.Disconnect | src/server.cc:161-176 | the user is erased first, then "<name> forcefully disconnected (an exception was thrown)." is logged under the next id and is the last frame every remaining user received; the one leaving does not receive it; every remaining user's connection keeps its input and callbacks |
| ChatServer.Server.Attend | src/server.cc:158-176 | after the session, the disconnection notice carries the display name the session's renames left, is logged under the id before `next_id_` unless the counter wrapped, and is the last frame every remaining user received; every remaining user's connection keeps its input and callbacks |
| ChatServer.Server.Serve | src/server.cc:99-179 | serve logs the connection notice; it then polls the input after the handshake, in the mode the handshake line named, until a poll ends the connection, and erases the user's address; it logs "<final name> forcefully disconnected (an exception was thrown)." and sends it last to every remaining user; the log grows by two entries plus one per rename or post, and earlier entries are never rewritten; every remaining user's connection keeps its input and callbacks |
| ChatServer.NextIdIsFree | src/server.cc:89 | before the counter wraps, `next_id_` counts the messages added and is not yet in the log |
| ChatServer.RenameTwice | src/server.cc:112-124 | renaming "Alice" then "Bob" logs "<addr> is now known as Alice." and "Alice is now known as Bob." under consecutive ids |

## Left out

- Sockets, `bind`/`listen`/`accept` and the detached thread per connection in `Server::run`. A transport is a pair of byte sequences.
- Mutexes and concurrency. Every server operation runs to completion on its own. Interleavings between connections, such as another connection's messages arriving mid-poll, are not modelled.
- The JSON text library's parser and printer, and the `DataNode` internals beyond the four node kinds used. These are foreign code; `parse` and `stringify` are parameters.
- Logging, `OPTION` parsing and `scrump_main`. They have no effect on the protocol.
- The client program (`src/client.cc`). It is terminal user interface and I/O.
- The binary primitives (`scrump/binary.h`) and the `MessageType` definition (`message_type.h`) are not part of this model. Their assumed formats are described above.
- The invalid handshake. In the source, the server constructor returns with `mode_` uninitialised and no sub-connection constructed, and `serve` then uses it. The model ends that serve after the reply, without filing the user. The connection notice has already been logged by then.
- The narrowing of a binary kind number wider than `MessageType`'s underlying type in `static_cast<MessageType>`. Every number from 5 on is treated as a kind with no callback.
- Failures of `socket.send` while broadcasting or replying. Writing to a transport always succeeds in the model.
- The order in which `addMessage` visits users. Each user's connection receives exactly one frame, so the order is not observable per connection.
- ChatServer.Server.Session: states which callbacks ran (the poll trace), how many log entries they add, the final display name, and that other connections keep their input and callbacks. Over the whole session it does not state the text of each entry, the RECEIVE_HISTORY replies sent to the requester, or the frames sent to other users; those effects are stated per callback by ChatServer.Server.PollOnce and ChatServer.Server.Run.
- Messages.CategoryFromCode: keeps every number from 2 on as an undeclared category. A real compiler narrows the cast to the enum's underlying type, so for example 2^32 would become CHAT_MESSAGE, and C++17 leaves values outside 0..1 undefined.

=== FILE: binary_codec.dfy ===
/**
 * The binary form of every message: the READER and WRITER specialisations of
 * src/network.cc, built from the varint and string primitives.  A reader
 * takes the stream and returns the message with the bytes that follow it.
 */
module BinaryCodec {
  import opened Wrappers
  import opened Scalars
  import opened BinaryPrimitives
  import opened MessageTypes
  import opened Messages

  /** WRITER(RECEIVE_MESSAGE): id, category number, the sender only for CHAT_MESSAGE, text. */
  function WriteChatMessage(m: ChatMessage): Bytes
  {
    WriteVarUint(m.messageId)
      + WriteVarUint(CategoryCode(m.category))
      + (if m.category == CHAT_MESSAGE then WriteString(m.senderName) else [])
      + WriteString(m.text)
  }

  /**
   * READER(RECEIVE_MESSAGE): the category number is cast without a check; a
   * sender name is read only for CHAT_MESSAGE and is empty otherwise.
   */
  function ReadChatMessage(s: Bytes): (r: Option<(ChatMessage, Bytes)>)
    ensures r.Some? ==> |r.value.1| < |s|
  {
    var (id, s1) :- ReadVarUint(s);
    var (code, s2) :- ReadVarUint(s1);
    var category := CategoryFromCode(code);
    if category == CHAT_MESSAGE then
      var (sender, s3) :- ReadString(s2);
      var (text, s4) :- ReadString(s3);
      Some((ChatMessage(id, category, sender, text), s4))
    else
      var (text, s3) :- ReadString(s2);
      Some((ChatMessage(id, category, [], text), s3))
  }

  /** The entries of WRITER(RECEIVE_HISTORY), written one after another. */
  function WriteChatMessages(messages: seq<ChatMessage>): Bytes
  {
    if messages == [] then [] else WriteChatMessage(messages[0]) + WriteChatMessages(messages[1..])
  }

  /** Reads `n` messages one after another, in stream order. */
  function ReadChatMessages(n: nat, s: Bytes): (r: Option<(seq<ChatMessage>, Bytes)>)
    ensures r.Some? ==> |r.value.0| == n
    decreases n
  {
    if n == 0 then Some(([], s))
    else
      var (first, s1) :- ReadChatMessage(s);
      var (others, s2) :- ReadChatMessages(n - 1, s1);
      Some(([first] + others, s2))
  }

  /** `scrump::serialize`: the WRITER of the message's kind. */
  function Serialize(m: Message): Bytes
  {
    match m
    case Identify(name) => WriteString(name)
    case SendMessage(text) => WriteString(text)
    case ReceiveMessage(chat) => WriteChatMessage(chat)
    case RequestHistory(start, count) => WriteVarUint(start) + WriteVarUint(count)
    case ReceiveHistory(messages) => WriteVarUint(|messages|) + WriteChatMessages(messages)
  }

  /** The READER of kind `t`, reading into a freshly constructed message. */
  function Read(t: MessageType, s: Bytes): (r: Option<(Message, Bytes)>)
    ensures r.Some? ==> TypeOf(r.value.0) == t
  {
    match t
    case IDENTIFY =>
      var (name, rest) :- ReadString(s);
      Some((Identify(name), rest))
    case SEND_MESSAGE =>
      var (text, rest) :- ReadString(s);
      Some((SendMessage(text), rest))
    case RECEIVE_MESSAGE =>
      var (chat, rest) :- ReadChatMessage(s);
      Some((ReceiveMessage(chat), rest))
    case REQUEST_HISTORY =>
      var (start, s1) :- ReadVarUint(s);
      var (count, rest) :- ReadVarUint(s1);
      Some((RequestHistory(start, count), rest))
    case RECEIVE_HISTORY =>
      var (n, s1) :- ReadVarUint(s);
      var (messages, rest) :- ReadChatMessages(n, s1);
      Some((ReceiveHistory(messages), rest))
  }

  /** `scrump::deserialize`: reads a message of kind `t` from a frame's payload; bytes after it are ignored. */
  function Deserialize(t: MessageType, payload: Bytes): (r: Option<Message>)
    ensures r.Some? ==> TypeOf(r.value) == t
  {
    var (m, _) :- Read(t, payload);
    Some(m)
  }

  /** WRITER(RECEIVE_HISTORY): the count, then each entry in order. */
  method WriteReceiveHistory(messages: seq<ChatMessage>) returns (out: Bytes)
    ensures out == Serialize(ReceiveHistory(messages))
  {
    out := WriteVarUint(|messages|);
    var i := 0;
    while i < |messages|
      invariant 0 <= i <= |messages|
      invariant out == WriteVarUint(|messages|) + WriteChatMessages(messages[..i])
    {
      WriteOneMore(messages, i);
      out := out + WriteChatMessage(messages[i]);
      i := i + 1;
    }
    assert messages[..i] == messages;
  }

  /** Writing one more entry extends the bytes written so far. */
  lemma WriteOneMore(messages: seq<ChatMessage>, i: nat)
    requires i < |messages|
    ensures WriteChatMessages(messages[..i + 1]) == WriteChatMessages(messages[..i]) + WriteChatMessage(messages[i])
  {
    WriteChatMessagesSnoc(messages[..i + 1]);
    assert messages[..i + 1][..i] == messages[..i];
  }

  lemma {:induction false} WriteChatMessagesSnoc(messages: seq<ChatMessage>)
    requires messages != []
    ensures WriteChatMessages(messages) ==
      WriteChatMessages(messages[..|messages| - 1]) + WriteChatMessage(messages[|messages| - 1])
  {
    var init := messages[..|messages| - 1];
    var last := WriteChatMessage(messages[|messages| - 1]);
    if |messages| == 1 {
      assert init == [] && messages[1..] == [];
    } else {
      var tail := messages[1..];
      WriteChatMessagesSnoc(tail);
      assert tail[..|tail| - 1] == init[1..] && tail[|tail| - 1] == messages[|messages| - 1];
      assert init != [] && init[0] == messages[0];
      calc {
        WriteChatMessages(messages);
        WriteChatMessage(messages[0]) + WriteChatMessages(tail);
        WriteChatMessage(messages[0]) + (WriteChatMessages(init[1..]) + last);
        (WriteChatMessage(init[0]) + WriteChatMessages(init[1..])) + last;
        WriteChatMessages(init) + last;
      }
    }
  }

  /** Prefixes the messages read so far to the outcome of reading the remaining ones. */
  function After(done: seq<ChatMessage>, r: Option<(seq<ChatMessage>, Bytes)>): Option<(seq<ChatMessage>, Bytes)>
  {
    match r
    case None => None
    case Some((more, rest)) => Some((done + more, rest))
  }

  lemma AfterAfter(first: seq<ChatMessage>, second: seq<ChatMessage>, r: Option<(seq<ChatMessage>, Bytes)>)
    ensures After(first, After(second, r)) == After(first + second, r)
  {
    if r.Some? {
      assert first + (second + r.value.0) == first + second + r.value.0;
    }
  }

  /** Reading one entry moves it from the remaining reads to the messages read so far. */
  lemma ReadOneMore(done: seq<ChatMessage>, k: nat, cur: Bytes, entry: ChatMessage, next: Bytes)
    requires k > 0 && ReadChatMessage(cur) == Some((entry, next))
    ensures After(done, ReadChatMessages(k, cur)) == After(done + [entry], ReadChatMessages(k - 1, next))
  {
    assert ReadChatMessages(k, cur) == After([entry], ReadChatMessages(k - 1, next));
    AfterAfter(done, [entry], ReadChatMessages(k - 1, next));
  }

  /**
   * READER(RECEIVE_HISTORY): reads the count, then that many entries, each
   * appended to whatever the target list already holds.
   */
  method ReadReceiveHistory(s: Bytes, target: seq<ChatMessage>) returns (r: Option<(seq<ChatMessage>, Bytes)>)
    ensures r == match ReadVarUint(s)
                 case None => None
                 case Some((n, s1)) => After(target, ReadChatMessages(n, s1))
  {
    var count := ReadVarUint(s);
    if count.None? {
      return None;
    }
    var (n, s1) := count.value;
    var messages := target;
    var cur := s1;
    var i := 0;
    while i < n
      invariant 0 <= i <= n
      invariant After(target, ReadChatMessages(n, s1)) == After(messages, ReadChatMessages(n - i, cur))
    {
      var temp := ReadChatMessage(cur);
      if temp.None? {
        assert ReadChatMessages(n - i, cur).None?;
        return None;
      }
      var (entry, next) := temp.value;
      ReadOneMore(messages, n - i, cur, entry, next);
      messages := messages + [entry];
      cur := next;
      i := i + 1;
    }
    assert ReadChatMessages(0, cur) == Some(([], cur));
    assert messages + [] == messages;
    r := Some((messages, cur));
  }

  /** `scrump::serialize(message)`, with the RECEIVE_HISTORY loop run as written. */
  method SerializeMessage(m: Message) returns (payload: Bytes)
    ensures payload == Serialize(m)
  {
    if m.ReceiveHistory? {
      payload := WriteReceiveHistory(m.messages);
    } else {
      payload := Serialize(m);
    }
  }

  /** `scrump::deserialize<Message<t>>(payload)`, with the RECEIVE_HISTORY loop run as written. */
  method DeserializeMessage(t: MessageType, payload: Bytes) returns (r: Option<Message>)
    ensures r == Deserialize(t, payload)
  {
    if t == RECEIVE_HISTORY {
      var read := ReadReceiveHistory(payload, []);
      if ReadVarUint(payload).Some? {
        var (n, s1) := ReadVarUint(payload).value;
        var entries := ReadChatMessages(n, s1);
        assert entries.Some? ==> [] + entries.value.0 == entries.value.0;
      }
      r := if read.Some? then Some(ReceiveHistory(read.value.0)) else None;
    } else {
      r := Deserialize(t, payload);
    }
  }

  // ---------------------------------------------------------------------------
  // Properties of the binary form

  /** A ChatMessage the binary form carries exactly: a category the cast can produce, no sender name off CHAT_MESSAGE, lengths that fit 64 bits. */
  predicate BinaryChatMessage(m: ChatMessage)
  {
    && CanonicalCategory(m.category)
    && SenderOnlyForChat(m)
    && |m.senderName| < TWO_TO_THE_64
    && |m.text| < TWO_TO_THE_64
  }

  predicate BinaryMessage(m: Message)
  {
    match m
    case Identify(name) => |name| < TWO_TO_THE_64
    case SendMessage(text) => |text| < TWO_TO_THE_64
    case ReceiveMessage(chat) => BinaryChatMessage(chat)
    case RequestHistory(_, _) => true
    case ReceiveHistory(messages) =>
      |messages| < TWO_TO_THE_64 && AllBinaryChatMessages(messages)
  }

  predicate AllBinaryChatMessages(messages: seq<ChatMessage>)
  {
    forall i :: 0 <= i < |messages| ==> BinaryChatMessage(messages[i])
  }

  lemma SeqAssoc4(a: Bytes, b: Bytes, c: Bytes, d: Bytes, e: Bytes)
    ensures a + b + c + d + e == a + (b + (c + (d + e)))
  {
  }

  lemma ChatMessageRoundTrip(m: ChatMessage, rest: Bytes)
    requires BinaryChatMessage(m)
    ensures ReadChatMessage(WriteChatMessage(m) + rest) == Some((m, rest))
  {
    var code := CategoryCode(m.category);
    CategoryCodeRoundTrip(m.category);
    var afterText := rest;
    var afterSender := WriteString(m.text) + rest;
    StringRoundTrip(m.text, afterText);
    var afterCode := if m.category == CHAT_MESSAGE then WriteString(m.senderName) + afterSender else afterSender;
    if m.category == CHAT_MESSAGE {
      StringRoundTrip(m.senderName, afterSender);
    }
    var afterId := WriteVarUint(code) + afterCode;
    VarUintRoundTrip(code, afterCode);
    VarUintRoundTrip(m.messageId, afterId);
    var a, b := WriteVarUint(m.messageId), WriteVarUint(code);
    var c, d := (if m.category == CHAT_MESSAGE then WriteString(m.senderName) else []), WriteString(m.text);
    assert WriteChatMessage(m) == a + b + c + d;
    assert afterCode == c + (d + rest);
    SeqAssoc4(a, b, c, d, rest);
    if m.category == CHAT_MESSAGE {
      assert ReadString(afterCode) == Some((m.senderName, afterSender));
    } else {
      assert ReadString(afterCode) == Some((m.text, rest));
    }
  }

  /** A notice read back from its binary form has an empty sender name, whatever the written one held. */
  lemma NoticeSenderNotCarried(m: ChatMessage, rest: Bytes)
    requires m.category == NOTICE && |m.text| < TWO_TO_THE_64
    ensures ReadChatMessage(WriteChatMessage(m) + rest) == Some((m.(senderName := []), rest))
  {
    ChatMessageRoundTrip(m.(senderName := []), rest);
  }

  lemma ReadChatMessagesCons(n: nat, s: Bytes, first: ChatMessage, s1: Bytes, others: seq<ChatMessage>, rest: Bytes)
    requires n > 0
    requires ReadChatMessage(s) == Some((first, s1))
    requires ReadChatMessages(n - 1, s1) == Some((others, rest))
    ensures ReadChatMessages(n, s) == Some(([first] + others, rest))
  {
  }

  lemma WriteChatMessagesCons(messages: seq<ChatMessage>, rest: Bytes)
    requires messages != []
    ensures WriteChatMessages(messages) + rest == WriteChatMessage(messages[0]) + (WriteChatMessages(messages[1..]) + rest)
  {
  }

  lemma {:induction false} ChatMessagesRoundTrip(messages: seq<ChatMessage>, rest: Bytes)
    requires AllBinaryChatMessages(messages)
    ensures ReadChatMessages(|messages|, WriteChatMessages(messages) + rest) == Some((messages, rest))
  {
    if messages == [] {
      assert WriteChatMessages(messages) + rest == rest;
    } else {
      AllBinaryTail(messages);
      ChatMessagesRoundTrip(messages[1..], rest);
      ChatMessagesStep(messages, rest);
    }
  }

  lemma AllBinaryTail(messages: seq<ChatMessage>)
    requires messages != [] && AllBinaryChatMessages(messages)
    ensures BinaryChatMessage(messages[0]) && AllBinaryChatMessages(messages[1..])
  {
    assert BinaryChatMessage(messages[0]);
    forall i | 0 <= i < |messages| - 1 ensures BinaryChatMessage(messages[1..][i]) {
      assert messages[1..][i] == messages[i + 1];
    }
  }

  /** One step of the round trip of a list: the first entry, then the others. */
  lemma ChatMessagesStep(messages: seq<ChatMessage>, rest: Bytes)
    requires messages != [] && BinaryChatMessage(messages[0])
    requires ReadChatMessages(|messages| - 1, WriteChatMessages(messages[1..]) + rest) == Some((messages[1..], rest))
    ensures ReadChatMessages(|messages|, WriteChatMessages(messages) + rest) == Some((messages, rest))
  {
    var s := WriteChatMessages(messages) + rest;
    var tail := WriteChatMessages(messages[1..]) + rest;
    assert ReadChatMessage(s) == Some((messages[0], tail)) by {
      WriteChatMessagesCons(messages, rest);
      ChatMessageRoundTrip(messages[0], tail);
    }
    ReadChatMessagesCons(|messages|, s, messages[0], tail, messages[1..], rest);
    assert [messages[0]] + messages[1..] == messages;
  }

  /** `read(write(m)) == m` for every message the binary form carries exactly, and the bytes after it are left unread. */
  lemma BinaryRoundTrip(m: Message, rest: Bytes)
    requires BinaryMessage(m)
    ensures Read(TypeOf(m), Serialize(m) + rest) == Some((m, rest))
  {
    match m
    case Identify(name) =>
      StringRoundTrip(name, rest);
    case SendMessage(text) =>
      StringRoundTrip(text, rest);
    case ReceiveMessage(chat) =>
      ChatMessageRoundTrip(chat, rest);
    case RequestHistory(start, count) =>
      RequestHistoryRoundTrip(start, count, rest);
    case ReceiveHistory(messages) =>
      ReceiveHistoryRoundTrip(messages, rest);
  }

  lemma RequestHistoryRoundTrip(start: u64, count: u64, rest: Bytes)
    ensures Read(REQUEST_HISTORY, Serialize(RequestHistory(start, count)) + rest) == Some((RequestHistory(start, count), rest))
  {
    var tail := WriteVarUint(count) + rest;
    var s := Serialize(RequestHistory(start, count)) + rest;
    assert s == WriteVarUint(start) + tail;
    VarUintRoundTrip(count, rest);
    VarUintRoundTrip(start, tail);
    ReadRequestStep(s, start, tail, count, rest);
  }

  lemma ReadRequestStep(s: Bytes, start: u64, s1: Bytes, count: u64, rest: Bytes)
    requires ReadVarUint(s) == Some((start, s1))
    requires ReadVarUint(s1) == Some((count, rest))
    ensures Read(REQUEST_HISTORY, s) == Some((RequestHistory(start, count), rest))
  {
  }

  lemma ReceiveHistoryRoundTrip(messages: seq<ChatMessage>, rest: Bytes)
    requires BinaryMessage(ReceiveHistory(messages))
    ensures Read(RECEIVE_HISTORY, Serialize(ReceiveHistory(messages)) + rest) == Some((ReceiveHistory(messages), rest))
  {
    var tail := WriteChatMessages(messages) + rest;
    SerializeHistoryConcat(messages, rest);
    VarUintRoundTrip(|messages|, tail);
    ChatMessagesRoundTrip(messages, rest);
    ReadHistoryStep(Serialize(ReceiveHistory(messages)) + rest, |messages|, tail, messages, rest);
  }

  lemma SerializeHistoryConcat(messages: seq<ChatMessage>, rest: Bytes)
    ensures Serialize(ReceiveHistory(messages)) + rest == WriteVarUint(|messages|) + (WriteChatMessages(messages) + rest)
  {
  }

  lemma ReadHistoryStep(s: Bytes, n: u64, s1: Bytes, messages: seq<ChatMessage>, rest: Bytes)
    requires ReadVarUint(s) == Some((n, s1))
    requires ReadChatMessages(n, s1) == Some((messages, rest))
    ensures Read(RECEIVE_HISTORY, s) == Some((ReceiveHistory(messages), rest))
  {
  }

  /** A serialised payload deserialises to the message it came from. */
  lemma DeserializeSerialize(m: Message)
    requires BinaryMessage(m)
    ensures Deserialize(TypeOf(m), Serialize(m)) == Some(m)
  {
    BinaryRoundTrip(m, []);
    assert Serialize(m) + [] == Serialize(m);
  }
}

=== FILE: binary_primitives.dfy ===
/**
 * The binary reader/writer primitives the codecs are built from.  Their
 * implementation (scrump/binary.h) is not part of this model; the wire format
 * assumed here is unsigned LEB128 (section 7.6 of DWARF version 5): groups of
 * seven bits, least significant group first, every group but the last with its
 * high bit set.  A string is its length as such a varint followed by its bytes.
 * Reading fails when the stream ends early or a varint exceeds 64 bits.
 */
module BinaryPrimitives {
  import opened Wrappers
  import opened Scalars

  /** 128^k: the number of values that fit in k seven-bit groups. */
  function Pow128(k: nat): (r: nat)
    ensures r >= 1
  {
    if k == 0 then 1 else 128 * Pow128(k - 1)
  }

  /** `writeVarUint`: seven bits per byte, least significant group first. */
  function WriteVarUint(n: nat): (r: Bytes)
    ensures |r| >= 1
    decreases n
  {
    if n < 0x80 then [n as byte]
    else [(n % 0x80 + 0x80) as byte] + WriteVarUint(n / 0x80)
  }

  /**
   * The encoding is self-delimiting, since only its last byte lacks the
   * continuation bit, and minimal: it has one group per started seven bits of
   * the value.
   */
  lemma {:induction false} VarUintEncodingShape(n: nat)
    ensures var r := WriteVarUint(n);
      && (forall i :: 0 <= i < |r| - 1 ==> r[i] >= 0x80)
      && r[|r| - 1] < 0x80
      && n < Pow128(|r|)
      && (|r| > 1 ==> n >= Pow128(|r| - 1))
    decreases n
  {
    if n >= 0x80 {
      var q := n / 0x80;
      VarUintEncodingShape(q);
      var tail := WriteVarUint(q);
      assert WriteVarUint(n) == [(n % 0x80 + 0x80) as byte] + tail;
      assert n < 0x80 * (q + 1) && 0x80 * (q + 1) <= 0x80 * Pow128(|tail|);
      if |tail| > 1 {
        assert 0x80 * Pow128(|tail| - 1) <= 0x80 * q <= n;
      }
    }
  }

  /** Reads one varint of any size; the rest of the stream is returned with it. */
  function ReadVarNat(s: Bytes): (r: Option<(nat, Bytes)>)
    ensures r.Some? ==> |r.value.1| < |s|
  {
    if |s| == 0 then None
    else if s[0] < 0x80 then Some((s[0] as nat, s[1..]))
    else
      match ReadVarNat(s[1..])
      case None => None
      case Some((v, rest)) => Some(((s[0] as int - 0x80) + 0x80 * v, rest))
  }

  /** `readVarUint`: a varint whose value fits in 64 bits. */
  function ReadVarUint(s: Bytes): (r: Option<(u64, Bytes)>)
  {
    match ReadVarNat(s)
    case None => None
    case Some((v, rest)) => if v < TWO_TO_THE_64 then Some((v as u64, rest)) else None
  }

  /** `writeString`: the length as a varint, then the bytes. */
  function WriteString(s: Bytes): Bytes
  {
    WriteVarUint(|s|) + s
  }

  /** `readString`: fails when fewer bytes follow than the length announces. */
  function ReadString(s: Bytes): (r: Option<(Bytes, Bytes)>)
    ensures r.Some? ==> |r.value.1| < |s|
  {
    match ReadVarUint(s)
    case None => None
    case Some((n, rest)) =>
      if n <= |rest| then Some((rest[..n], rest[n..])) else None
  }

  /** Reading back a written varint yields the value and leaves whatever followed it. */
  lemma {:induction false} VarNatRoundTrip(n: nat, rest: Bytes)
    ensures ReadVarNat(WriteVarUint(n) + rest) == Some((n, rest))
    decreases n
  {
    var s := WriteVarUint(n) + rest;
    if n < 0x80 {
      assert s[0] == n as byte && s[1..] == rest;
    } else {
      var q, d := n / 0x80, n % 0x80;
      var head: byte := (d + 0x80) as byte;
      assert WriteVarUint(n) == [head] + WriteVarUint(q);
      assert s == [head] + (WriteVarUint(q) + rest);
      VarNatRoundTrip(q, rest);
      assert head >= 0x80 && head as int - 0x80 == d;
      assert ReadVarNat(s) == Some((d + 0x80 * q, rest));
      assert d + 0x80 * q == n;
    }
  }

  lemma VarUintRoundTrip(n: u64, rest: Bytes)
    ensures ReadVarUint(WriteVarUint(n) + rest) == Some((n, rest))
  {
    VarNatRoundTrip(n, rest);
  }

  /** A written string reads back whole, provided its length fits the 64-bit length field. */
  lemma StringRoundTrip(s: Bytes, rest: Bytes)
    requires |s| < TWO_TO_THE_64
    ensures ReadString(WriteString(s) + rest) == Some((s, rest))
  {
    VarUintRoundTrip(|s|, s + rest);
    assert WriteString(s) + rest == WriteVarUint(|s|) + (s + rest);
    assert (s + rest)[..|s|] == s;
    assert (s + rest)[|s|..] == rest;
  }
}

=== FILE: data_node.dfy ===
/**
 * The structured document the JSON codec works on (scrump::DataNode).  Only
 * the node kinds the chat protocol uses are modelled.  The accessors fail
 * where the library's `asObject`, `asArray`, `asString` and `asInt64` would
 * throw, and a missing key fails like the default node `operator[]` inserts.
 */
module DataNodes {
  import opened Wrappers
  import opened Scalars

  datatype DataNode =
    | Object(fields: map<Bytes, DataNode>)
    | Array(items: seq<DataNode>)
    | String(text: Bytes)
    | Int64(number: int64)

  /** `node.asObject()[key]`, failing when the node is not an object or lacks the key. */
  function Field(node: DataNode, key: Bytes): (r: Option<DataNode>)
    ensures r.Some? <==> node.Object? && key in node.fields
    ensures r.Some? ==> r.value == node.fields[key]
  {
    if node.Object? && key in node.fields then Some(node.fields[key]) else None
  }

  /** `node.asObject()[key].asString()` */
  function StringField(node: DataNode, key: Bytes): (r: Option<Bytes>)
    ensures r.Some? <==> node.Object? && key in node.fields && node.fields[key].String?
    ensures r.Some? ==> node.fields[key] == String(r.value)
  {
    match Field(node, key)
    case Some(String(s)) => Some(s)
    case _ => None
  }

  /** `node.asObject()[key].asInt64()` */
  function Int64Field(node: DataNode, key: Bytes): (r: Option<int64>)
    ensures r.Some? <==> node.Object? && key in node.fields && node.fields[key].Int64?
    ensures r.Some? ==> node.fields[key] == Int64(r.value)
  {
    match Field(node, key)
    case Some(Int64(x)) => Some(x)
    case _ => None
  }
}

=== FILE: message_type.dfy ===
/**
 * The closed set of message kinds.  Its definition (message_type.h) is not
 * part of this model: the names are the enumerators' own spelling, and the
 * numeric codes are assumed to follow declaration order, 0 to 4.
 */
module MessageTypes {
  import opened Wrappers
  import opened Scalars

  datatype MessageType = IDENTIFY | SEND_MESSAGE | RECEIVE_MESSAGE | REQUEST_HISTORY | RECEIVE_HISTORY

  /** `toString`: the kind's name as it appears in a JSON frame's "type" field. */
  function ToString(t: MessageType): Bytes
  {
    match t
    case IDENTIFY => Str("IDENTIFY")
    case SEND_MESSAGE => Str("SEND_MESSAGE")
    case RECEIVE_MESSAGE => Str("RECEIVE_MESSAGE")
    case REQUEST_HISTORY => Str("REQUEST_HISTORY")
    case RECEIVE_HISTORY => Str("RECEIVE_HISTORY")
  }

  /** `fromString`: the partial inverse of ToString; every other byte string is rejected. */
  function FromString(s: Bytes): (r: Option<MessageType>)
    ensures r.Some? ==> ToString(r.value) == s
    ensures r.None? ==> forall t :: ToString(t) != s
  {
    if s == Str("IDENTIFY") then Some(IDENTIFY)
    else if s == Str("SEND_MESSAGE") then Some(SEND_MESSAGE)
    else if s == Str("RECEIVE_MESSAGE") then Some(RECEIVE_MESSAGE)
    else if s == Str("REQUEST_HISTORY") then Some(REQUEST_HISTORY)
    else if s == Str("RECEIVE_HISTORY") then Some(RECEIVE_HISTORY)
    else None
  }

  /** Every name reads back as its own kind: the five names are pairwise distinct. */
  lemma FromToString(t: MessageType)
    ensures FromString(ToString(t)) == Some(t)
  {
    var names := [Str("IDENTIFY"), Str("SEND_MESSAGE"), Str("RECEIVE_MESSAGE"), Str("REQUEST_HISTORY"), Str("RECEIVE_HISTORY")];
    assert names[0][2] != names[1][2] && |names[0]| != |names[2]|;
    assert names[2][2] != names[3][2] && names[2][8] != names[4][8] && names[3][2] != names[4][2];
  }

  /** `static_cast<uint64_t>(message_type)`: the kind's number on the binary wire. */
  function Code(t: MessageType): (r: u64)
    ensures r < 5
  {
    match t
    case IDENTIFY => 0
    case SEND_MESSAGE => 1
    case RECEIVE_MESSAGE => 2
    case REQUEST_HISTORY => 3
    case RECEIVE_HISTORY => 4
  }

  /** The kind a binary frame's number names; numbers from 5 on name no kind. */
  function FromCode(c: u64): (r: Option<MessageType>)
    ensures r.Some? <==> c < 5
    ensures r.Some? ==> Code(r.value) == c
  {
    if c == 0 then Some(IDENTIFY)
    else if c == 1 then Some(SEND_MESSAGE)
    else if c == 2 then Some(RECEIVE_MESSAGE)
    else if c == 3 then Some(REQUEST_HISTORY)
    else if c == 4 then Some(RECEIVE_HISTORY)
    else None
  }

  lemma FromToCode(t: MessageType)
    ensures FromCode(Code(t)) == Some(t)
  {
  }
}

=== FILE: messages.dfy ===
/**
 * The five message structs.  A ChatMessage (the RECEIVE_MESSAGE payload) is
 * the unit stored in the server's history.
 */
module Messages {
  import opened Scalars
  import opened MessageTypes

  /**
   * `ChatMessage::Category`.  CHAT_MESSAGE (0) is sent by a user, NOTICE (1)
   * by the server.  The binary reader casts whatever number it reads to the
   * enum, so a value outside the two enumerators can reach the codecs; it is
   * `Undeclared(code)`, with a code from 2 on.  The model keeps the whole
   * 64-bit number, where a compiler would narrow it to the enum's
   * underlying type.
   */
  datatype Category = CHAT_MESSAGE | NOTICE | Undeclared(code: u64)

  /** The enum's integer value, as the binary writer emits it. */
  function CategoryCode(c: Category): u64
  {
    match c
    case CHAT_MESSAGE => 0
    case NOTICE => 1
    case Undeclared(k) => k
  }

  /** `static_cast<Category>` of the number the binary reader reads. */
  function CategoryFromCode(k: u64): (c: Category)
    ensures CategoryCode(c) == k
    ensures c == CHAT_MESSAGE <==> k == 0
    ensures c == NOTICE <==> k == 1
  {
    if k == 0 then CHAT_MESSAGE else if k == 1 then NOTICE else Undeclared(k)
  }

  /** A category value the cast can produce: an enumerator, or an undeclared code other than 0 and 1. */
  predicate CanonicalCategory(c: Category)
  {
    c.Undeclared? ==> c.code >= 2
  }

  lemma CategoryCodeRoundTrip(c: Category)
    requires CanonicalCategory(c)
    ensures CategoryFromCode(CategoryCode(c)) == c
  {
  }

  datatype ChatMessage = ChatMessage(messageId: u64, category: Category, senderName: Bytes, text: Bytes)

  /** `ChatMessage temp;`: the strings start empty; id and category are always overwritten before use. */
  const DefaultChatMessage: ChatMessage := ChatMessage(0, CHAT_MESSAGE, [], [])

  datatype Message =
    | Identify(displayName: Bytes)
    | SendMessage(text: Bytes)
    | ReceiveMessage(chat: ChatMessage)
    | RequestHistory(startId: u64, numMessages: u64)
    | ReceiveHistory(messages: seq<ChatMessage>)

  /** The `Message<T>::type` of each struct. */
  function TypeOf(m: Message): MessageType
  {
    match m
    case Identify(_) => IDENTIFY
    case SendMessage(_) => SEND_MESSAGE
    case ReceiveMessage(_) => RECEIVE_MESSAGE
    case RequestHistory(_, _) => REQUEST_HISTORY
    case ReceiveHistory(_) => RECEIVE_HISTORY
  }

  /** `sender_name` is populated only for CHAT_MESSAGE. */
  predicate SenderOnlyForChat(m: ChatMessage)
  {
    m.category != CHAT_MESSAGE ==> m.senderName == []
  }
}

=== FILE: network.dfy ===
/**
 * One connection of the chat protocol: the mode handshake, the binary and
 * JSON framing, the per-kind callback table and the poll that reads one frame
 * and picks the callback to run (src/network.h, src/network.cc).
 *
 * A callback is represented by a token of type H.  Polling decodes the frame
 * exactly as the registered handler would and returns the token with the
 * decoded message; running the callback is then the owner's step.
 */
module Network {
  import opened Wrappers
  import opened Scalars
  import opened BinaryPrimitives
  import opened MessageTypes
  import opened Messages
  import opened DataNodes
  import opened StructuredCodec
  import opened BinaryCodec

  datatype Mode = BINARY | JSON

  /**
   * The JSON text library (scrump/json.h) is not part of this model; a
   * connection is given its `parse` and `stringify`.
   */
  datatype JsonText = JsonText(parse: Bytes -> Option<DataNode>, stringify: DataNode -> Bytes)

  /** What the framing relies on: stringify's output parses back, and holds no newline. */
  ghost predicate FaithfulJson(json: JsonText)
  {
    forall n :: NEWLINE !in json.stringify(n) && json.parse(json.stringify(n)) == Some(n)
  }

  // ---------------------------------------------------------------------------
  // Lines: the handshake and JSON frames

  /** The bytes up to the first newline, whether that newline was there, and the bytes after it. */
  datatype Line = Line(text: Bytes, terminated: bool, rest: Bytes)

  /** Splits a stream at its first newline; a stream without one is all text and unterminated. */
  function SplitLine(s: Bytes): (r: Line)
    ensures NEWLINE !in r.text
    ensures r.terminated ==> s == r.text + [NEWLINE] + r.rest
    ensures !r.terminated ==> s == r.text && r.rest == []
  {
    if |s| == 0 then Line([], false, [])
    else if s[0] == NEWLINE then Line([], true, s[1..])
    else
      var tail := SplitLine(s[1..]);
      Line([s[0]] + tail.text, tail.terminated, tail.rest)
  }

  /** A newline-free text followed by a newline is split back into that text and what follows. */
  lemma {:induction false} SplitTerminatedLine(text: Bytes, rest: Bytes)
    requires NEWLINE !in text
    ensures SplitLine(text + [NEWLINE] + rest) == Line(text, true, rest)
  {
    if text != [] {
      SplitTerminatedLine(text[1..], rest);
      assert (text + [NEWLINE] + rest)[1..] == text[1..] + [NEWLINE] + rest;
      assert [text[0]] + text[1..] == text;
    }
  }

  /** A stream without a newline is one unterminated line. */
  lemma {:induction false} SplitUnterminatedLine(s: Bytes)
    requires NEWLINE !in s
    ensures SplitLine(s) == Line(s, false, [])
  {
    if s != [] {
      SplitUnterminatedLine(s[1..]);
      assert [s[0]] + s[1..] == s;
    }
  }

  /**
   * The character loop shared by `readline` and `JSONConnection::poll`: it
   * receives one byte at a time, stops at a newline or when the transport has
   * no more, and reports the line as terminated when the last byte it
   * received is a newline.
   */
  method ReceiveLine(s: Bytes) returns (line: Line)
    ensures line == SplitLine(s)
  {
    var data: Bytes := [];
    var c: byte := 0;
    var i := 0;
    while i < |s|
      invariant 0 <= i <= |s|
      invariant data == s[..i] && NEWLINE !in data
      invariant c != NEWLINE
    {
      c := s[i];
      i := i + 1;
      if c == NEWLINE {
        break;
      }
      data := data + [c];
    }
    if c == NEWLINE {
      assert s == data + [NEWLINE] + s[i..];
      SplitTerminatedLine(data, s[i..]);
      line := Line(data, true, s[i..]);
    } else {
      assert data == s;
      SplitUnterminatedLine(s);
      line := Line(data, false, []);
    }
  }

  // ---------------------------------------------------------------------------
  // The mode handshake

  /** The token that names a mode on the handshake line. */
  function ModeName(mode: Mode): Bytes
  {
    match mode
    case BINARY => Str("BINARY")
    case JSON => Str("JSON")
  }

  /** The server's reading of the handshake line: exactly "BINARY" or "JSON", nothing else. */
  function ParseMode(line: Bytes): (r: Option<Mode>)
    ensures r == Some(BINARY) <==> line == Str("BINARY")
    ensures r == Some(JSON) <==> line == Str("JSON")
    ensures r.Some? ==> ModeName(r.value) == line
  {
    if line == Str("BINARY") then Some(BINARY)
    else if line == Str("JSON") then Some(JSON)
    else None
  }

  /** What the client-side constructor writes before anything else: the mode token and a newline. */
  function ClientPreamble(mode: Mode): Bytes
  {
    ModeName(mode) + [NEWLINE]
  }

  /** The server reads back from a client's preamble the mode the client chose, and leaves what follows for polling. */
  lemma HandshakeAgreement(mode: Mode, rest: Bytes)
    ensures SplitLine(ClientPreamble(mode) + rest) == Line(ModeName(mode), true, rest)
    ensures ParseMode(ModeName(mode)) == Some(mode)
  {
    assert NEWLINE !in ModeName(mode);
    SplitTerminatedLine(ModeName(mode), rest);
    assert Str("BINARY") != Str("JSON");
  }

  // ---------------------------------------------------------------------------
  // Frames

  /** `BinaryConnection::send`: the kind's number, then the serialised message as a string. */
  function BinaryFrame(m: Message): Bytes
  {
    WriteVarUint(Code(TypeOf(m))) + WriteString(Serialize(m))
  }

  /** The envelope `JSONConnection::send` writes: {"type": kind name, "payload": encoded message}. */
  function Envelope(m: Message, payload: DataNode): DataNode
  {
    Object(map[Str("type") := String(ToString(TypeOf(m))), Str("payload") := payload])
  }

  /** `JSONConnection::send`: the stringified envelope and a newline; fails where encoding throws. */
  function JsonFrame(json: JsonText, m: Message): Option<Bytes>
  {
    var payload :- Encode(m);
    Some(json.stringify(Envelope(m, payload)) + [NEWLINE])
  }

  /** `Connection::send`: the frame of the mode chosen at construction. */
  function Frame(mode: Mode, json: JsonText, m: Message): Option<Bytes>
  {
    match mode
    case BINARY => Some(BinaryFrame(m))
    case JSON => JsonFrame(json, m)
  }

  // ---------------------------------------------------------------------------
  // Polling

  /**
   * What one poll does: run the callback `handler` with the decoded `message`,
   * drop a frame no callback is registered for, or end the connection because
   * the transport ran out (Severed) or the frame was bad (BadMessage).
   */
  datatype PollOutcome<H> = Dispatched(handler: H, message: Message) | Dropped | Severed | BadMessage
  {
    predicate Continues() { Dispatched? || Dropped? }
  }

  /**
   * `BinaryConnection::poll`: reads the kind's number and the payload string;
   * a number no callback is registered under is dropped; otherwise the
   * registered handler deserialises the payload, failing on a truncated one.
   */
  function BinaryPoll<H>(input: Bytes, callbacks: map<MessageType, H>): (PollOutcome<H>, Bytes)
  {
    match ReadVarUint(input)
    case None => (Severed, [])
    case Some((code, s1)) =>
      match ReadString(s1)
      case None => (Severed, [])
      case Some((payload, rest)) =>
        match FromCode(code)
        case None => (Dropped, rest)
        case Some(t) =>
          if t !in callbacks then (Dropped, rest)
          else
            match Deserialize(t, payload)
            case None => (BadMessage, rest)
            case Some(m) => (Dispatched(callbacks[t], m), rest)
  }

  /**
   * The checks `JSONConnection::poll` makes of a received line before it looks
   * for a callback: it parses, is an object, has a "type" that is a string
   * naming a kind, and has a "payload".  Any failure goes to `discard`.
   */
  function CheckEnvelope(json: JsonText, text: Bytes): (r: Option<(MessageType, DataNode)>)
  {
    var node :- json.parse(text);
    if !node.Object? || Str("type") !in node.fields then None
    else
      var typeNode := node.fields[Str("type")];
      if !typeNode.String? then None
      else
        var t :- FromString(typeNode.text);
        if Str("payload") !in node.fields then None
        else Some((t, node.fields[Str("payload")]))
  }

  /** What `JSONConnection::poll` does with one received line. */
  function JsonDispatch<H>(json: JsonText, text: Bytes, callbacks: map<MessageType, H>): PollOutcome<H>
  {
    match CheckEnvelope(json, text)
    case None => BadMessage
    case Some((t, payload)) =>
      if t !in callbacks then Dropped
      else
        match Decode(t, payload)
        case None => BadMessage
        case Some(m) => Dispatched(callbacks[t], m)
  }

  /** `JSONConnection::poll`: a line that the transport ends before its newline severs the connection. */
  function JsonPoll<H>(json: JsonText, input: Bytes, callbacks: map<MessageType, H>): (PollOutcome<H>, Bytes)
  {
    var line := SplitLine(input);
    if !line.terminated then (Severed, [])
    else (JsonDispatch(json, line.text, callbacks), line.rest)
  }

  /** `Connection::poll`: the poll of the mode chosen at construction. */
  function PollSpec<H>(mode: Mode, json: JsonText, input: Bytes, callbacks: map<MessageType, H>): (PollOutcome<H>, Bytes)
  {
    match mode
    case BINARY => BinaryPoll(input, callbacks)
    case JSON => JsonPoll(json, input, callbacks)
  }

  // ---------------------------------------------------------------------------
  // The connection object

  class Connection<H> {
    /** `mode_`: chosen once, at construction. */
    const mode: Mode
    const json: JsonText
    /** The bytes the transport has yet to deliver. */
    var input: Bytes
    /** The bytes written to the transport so far. */
    var output: Bytes
    /** `callbacks_` of the sub-connection the mode selects. */
    var callbacks: map<MessageType, H>

    /** A connection in `mode` over a transport that will deliver `input`, having written `output`. */
    constructor (mode: Mode, json: JsonText, input: Bytes, output: Bytes)
      ensures this.mode == mode && this.json == json
      ensures this.input == input && this.output == output && callbacks == map[]
    {
      this.mode := mode;
      this.json := json;
      this.input := input;
      this.output := output;
      callbacks := map[];
    }

    /** The client-side constructor: writes the mode token and a newline, and reads nothing back. */
    constructor Client(mode: Mode, json: JsonText, input: Bytes)
      ensures this.mode == mode && this.json == json
      ensures this.input == input && output == ClientPreamble(mode) && callbacks == map[]
    {
      this.mode := mode;
      this.json := json;
      this.input := input;
      output := ClientPreamble(mode);
      callbacks := map[];
    }

    /**
     * The server-side constructor: reads the handshake line and accepts
     * exactly "BINARY" or "JSON".  Any other line is answered with
     * "Invalid connection type." and yields no connection.
     */
    static method Accept(json: JsonText, transport: Bytes) returns (c: Connection?<H>, reply: Bytes)
      ensures var line := SplitLine(transport);
        && (c == null <==> ParseMode(line.text).None?)
        && (c == null ==> reply == Str("Invalid connection type."))
        && (c != null ==>
              && fresh(c) && reply == []
              && c.mode == ParseMode(line.text).value && c.json == json
              && c.input == line.rest && c.output == [] && c.callbacks == map[])
    {
      var line := ReceiveLine(transport);
      var mode := ParseMode(line.text);
      if mode.None? {
        c, reply := null, Str("Invalid connection type.");
        return;
      }
      c := new Connection(mode.value, json, line.rest, []);
      reply := [];
    }

    /**
     * `Connection::send`: writes one frame of the connection's mode.  In JSON
     * mode a message whose encoding throws writes nothing.
     */
    method Send(m: Message) returns (ok: bool)
      modifies this
      ensures ok <==> Frame(mode, json, m).Some?
      ensures output == old(output) + (if ok then Frame(mode, json, m).value else [])
      ensures input == old(input) && callbacks == old(callbacks)
    {
      match mode
      case BINARY =>
        var payload := SerializeMessage(m);
        output := output + WriteVarUint(Code(TypeOf(m))) + WriteString(payload);
        ok := true;
      case JSON =>
        var payload := EncodeMessage(m);
        if payload.None? {
          ok := false;
          return;
        }
        output := output + json.stringify(Envelope(m, payload.value)) + [NEWLINE];
        ok := true;
    }

    /** `Connection::on`: `emplace` into the table, so the first callback registered for a kind stays. */
    method On(t: MessageType, handler: H)
      modifies this
      ensures callbacks == Emplace(old(callbacks), t, handler)
      ensures input == old(input) && output == old(output)
    {
      callbacks := Emplace(callbacks, t, handler);
    }

    /** `Connection::poll`: receives one frame and reports what it leads to. */
    method Poll() returns (outcome: PollOutcome<H>)
      modifies this
      ensures (outcome, input) == PollSpec(mode, json, old(input), callbacks)
      ensures output == old(output) && callbacks == old(callbacks)
    {
      match mode
      case BINARY =>
        var kind := ReadVarUint(input);
        if kind.None? {
          outcome, input := Severed, [];
          return;
        }
        var data := ReadString(kind.value.1);
        if data.None? {
          outcome, input := Severed, [];
          return;
        }
        var (payload, rest) := data.value;
        input := rest;
        var t := FromCode(kind.value.0);
        if t.None? || t.value !in callbacks {
          outcome := Dropped;
          return;
        }
        var m := DeserializeMessage(t.value, payload);
        outcome := if m.Some? then Dispatched(callbacks[t.value], m.value) else BadMessage;
      case JSON =>
        var line := ReceiveLine(input);
        if !line.terminated {
          outcome, input := Severed, [];
          return;
        }
        input := line.rest;
        var envelope := CheckEnvelope(json, line.text);
        if envelope.None? {
          outcome := BadMessage;
          return;
        }
        var (t, payload) := envelope.value;
        if t !in callbacks {
          outcome := Dropped;
          return;
        }
        var m := DecodeMessage(t, payload);
        outcome := if m.Some? then Dispatched(callbacks[t], m.value) else BadMessage;
    }
  }

  // ---------------------------------------------------------------------------
  // Properties of framing and dispatch

  /** A binary frame starts with the kind's number, followed by the payload as a length-prefixed string. */
  lemma BinaryFrameHeader(m: Message, rest: Bytes)
    requires |Serialize(m)| < TWO_TO_THE_64
    ensures ReadVarUint(BinaryFrame(m) + rest) == Some((Code(TypeOf(m)), WriteString(Serialize(m)) + rest))
    ensures ReadString(WriteString(Serialize(m)) + rest) == Some((Serialize(m), rest))
  {
    VarUintRoundTrip(Code(TypeOf(m)), WriteString(Serialize(m)) + rest);
    assert BinaryFrame(m) + rest == WriteVarUint(Code(TypeOf(m))) + (WriteString(Serialize(m)) + rest);
    StringRoundTrip(Serialize(m), rest);
  }

  /** Polling a binary frame yields the message it carries, for the callback registered for its kind, or drops it. */
  lemma BinaryPollFrame<H>(m: Message, callbacks: map<MessageType, H>, rest: Bytes)
    requires BinaryMessage(m) && |Serialize(m)| < TWO_TO_THE_64
    ensures BinaryPoll(BinaryFrame(m) + rest, callbacks) ==
      (if TypeOf(m) in callbacks then Dispatched(callbacks[TypeOf(m)], m) else Dropped, rest)
  {
    BinaryFrameHeader(m, rest);
    FromToCode(TypeOf(m));
    DeserializeSerialize(m);
  }

  /** Polling a JSON frame yields the message it carries, for the callback registered for its kind, or drops it. */
  lemma JsonPollFrame<H>(json: JsonText, m: Message, callbacks: map<MessageType, H>, rest: Bytes)
    requires FaithfulJson(json) && StructuredMessage(m)
    ensures JsonFrame(json, m).Some?
    ensures JsonPoll(json, JsonFrame(json, m).value + rest, callbacks) ==
      (if TypeOf(m) in callbacks then Dispatched(callbacks[TypeOf(m)], m) else Dropped, rest)
  {
    StructuredRoundTrip(m);
    var envelope := Envelope(m, Encode(m).value);
    var text := json.stringify(envelope);
    assert NEWLINE !in text && json.parse(text) == Some(envelope);
    SplitTerminatedLine(text, rest);
    FromToString(TypeOf(m));
    assert Str("type") != Str("payload");
    assert CheckEnvelope(json, text) == Some((TypeOf(m), Encode(m).value));
  }

  /** A line that fails any of the envelope checks is discarded: no callback runs and the connection ends. */
  lemma BadEnvelopeIsDiscarded<H>(json: JsonText, input: Bytes, callbacks: map<MessageType, H>)
    requires SplitLine(input).terminated
    requires var text := SplitLine(input).text;
      || json.parse(text).None?
      || !json.parse(text).value.Object?
      || Str("type") !in json.parse(text).value.fields
      || !json.parse(text).value.fields[Str("type")].String?
      || FromString(json.parse(text).value.fields[Str("type")].text).None?
      || Str("payload") !in json.parse(text).value.fields
    ensures JsonPoll(json, input, callbacks).0 == BadMessage
  {
  }

  /** A JSON line the transport ends before its newline severs the connection. */
  lemma UnterminatedLineSevers<H>(json: JsonText, input: Bytes, callbacks: map<MessageType, H>)
    requires NEWLINE !in input
    ensures JsonPoll(json, input, callbacks) == (Severed, [])
  {
    SplitUnterminatedLine(input);
  }

  /**
   * In both modes a well-formed frame of a kind without a callback is dropped
   * and polling goes on; its payload is never decoded, so it may be malformed.
   */
  lemma UnregisteredKindIsDropped<H>(mode: Mode, json: JsonText, input: Bytes, callbacks: map<MessageType, H>, t: MessageType)
    requires t !in callbacks
    requires mode == BINARY ==>
      && ReadVarUint(input).Some? && ReadVarUint(input).value.0 == Code(t)
      && ReadString(ReadVarUint(input).value.1).Some?
    requires mode == JSON ==>
      SplitLine(input).terminated && CheckEnvelope(json, SplitLine(input).text).Some?
      && CheckEnvelope(json, SplitLine(input).text).value.0 == t
    ensures PollSpec(mode, json, input, callbacks).0 == Dropped
  {
    FromToCode(t);
  }

  /**
   * A callback only ever receives the message decoded from the payload of the
   * frame just read, and only the callback registered for that message's kind.
   */
  lemma DispatchOnlyAfterDecode<H>(mode: Mode, json: JsonText, input: Bytes, callbacks: map<MessageType, H>)
    ensures var outcome := PollSpec(mode, json, input, callbacks).0;
      outcome.Dispatched? ==>
        && TypeOf(outcome.message) in callbacks
        && callbacks[TypeOf(outcome.message)] == outcome.handler
        && match mode
           case BINARY =>
             && ReadVarUint(input).Some?
             && ReadString(ReadVarUint(input).value.1).Some?
             && FromCode(ReadVarUint(input).value.0) == Some(TypeOf(outcome.message))
             && Deserialize(TypeOf(outcome.message), ReadString(ReadVarUint(input).value.1).value.0) == Some(outcome.message)
           case JSON =>
             && SplitLine(input).terminated
             && CheckEnvelope(json, SplitLine(input).text).Some?
             && CheckEnvelope(json, SplitLine(input).text).value.0 == TypeOf(outcome.message)
             && Decode(TypeOf(outcome.message), CheckEnvelope(json, SplitLine(input).text).value.1) == Some(outcome.message)
  {
    var outcome := PollSpec(mode, json, input, callbacks).0;
    if outcome.Dispatched? {
      match mode
      case BINARY =>
        var (code, s1) := ReadVarUint(input).value;
        var (payload, _) := ReadString(s1).value;
        assert Deserialize(TypeOf(outcome.message), payload) == Some(outcome.message);
      case JSON =>
        var (_, payload) := CheckEnvelope(json, SplitLine(input).text).value;
        assert Decode(TypeOf(outcome.message), payload) == Some(outcome.message);
    }
  }

  /**
   * The other half: a well-formed frame of a kind that has a callback, whose
   * payload the registered wrapper cannot decode, ends the connection as a bad
   * message, and the callback does not run.
   */
  lemma UndecodablePayloadIsBadMessage<H>(mode: Mode, json: JsonText, input: Bytes, callbacks: map<MessageType, H>, t: MessageType)
    requires t in callbacks
    requires mode == BINARY ==>
      && ReadVarUint(input).Some? && FromCode(ReadVarUint(input).value.0) == Some(t)
      && ReadString(ReadVarUint(input).value.1).Some?
      && Deserialize(t, ReadString(ReadVarUint(input).value.1).value.0).None?
    requires mode == JSON ==>
      && SplitLine(input).terminated
      && CheckEnvelope(json, SplitLine(input).text).Some?
      && CheckEnvelope(json, SplitLine(input).text).value.0 == t
      && Decode(t, CheckEnvelope(json, SplitLine(input).text).value.1).None?
    ensures PollSpec(mode, json, input, callbacks) ==
      (BadMessage, if mode == BINARY then ReadString(ReadVarUint(input).value.1).value.1 else SplitLine(input).rest)
  {
  }

  /** Every poll that lets the connection go on consumes at least one byte. */
  lemma PollConsumes<H>(mode: Mode, json: JsonText, input: Bytes, callbacks: map<MessageType, H>)
    ensures PollSpec(mode, json, input, callbacks).0.Continues() ==>
      |PollSpec(mode, json, input, callbacks).1| < |input|
  {
    if mode == JSON && SplitLine(input).terminated {
      var line := SplitLine(input);
      assert |input| == |line.text| + 1 + |line.rest|;
    }
  }

  /**
   * The outcomes of polling `input` again and again until a poll ends the
   * connection: every outcome but the last lets the connection go on.
   */
  function PollTrace<H>(mode: Mode, json: JsonText, input: Bytes, callbacks: map<MessageType, H>): (r: seq<PollOutcome<H>>)
    decreases |input|
    ensures |r| >= 1 && !r[|r| - 1].Continues()
    ensures forall i :: 0 <= i < |r| - 1 ==> r[i].Continues()
    ensures r[0] == PollSpec(mode, json, input, callbacks).0
  {
    var (outcome, rest) := PollSpec(mode, json, input, callbacks);
    PollConsumes(mode, json, input, callbacks);
    if outcome.Continues() then [outcome] + PollTrace(mode, json, rest, callbacks) else [outcome]
  }

  /** One more poll that lets the connection go on puts its outcome in front of the trace of the rest. */
  lemma PollTraceStep<H>(mode: Mode, json: JsonText, input: Bytes, callbacks: map<MessageType, H>)
    requires PollSpec(mode, json, input, callbacks).0.Continues()
    ensures PollTrace(mode, json, input, callbacks) ==
      [PollSpec(mode, json, input, callbacks).0] + PollTrace(mode, json, PollSpec(mode, json, input, callbacks).1, callbacks)
  {
  }
}

=== FILE: scalars.dfy ===
/**
 * Fixed-width integers, byte strings and the map insertion used throughout
 * the chat server.  A C++ `std::string` is a sequence of bytes, so every
 * string of the program (names, texts, JSON keys, the transport itself) is
 * modelled as `Bytes`; the few literals the program writes are ASCII and are
 * converted with `Str`.
 */
module Scalars {

  newtype byte = x: int | 0 <= x < 256
  type Bytes = seq<byte>

  const TWO_TO_THE_63: int := 0x8000_0000_0000_0000
  const TWO_TO_THE_64: int := 0x1_0000_0000_0000_0000

  /** `uint64_t` */
  type u64 = x: int | 0 <= x < TWO_TO_THE_64
  /** `int64_t` */
  type int64 = x: int | -TWO_TO_THE_63 <= x < TWO_TO_THE_63

  /** The bytes of an ASCII literal. */
  function Str(s: string): Bytes
  {
    seq(|s|, i requires 0 <= i < |s| => ((s[i] as int) % 256) as byte)
  }

  /** The newline byte that ends handshake lines and JSON frames. */
  const NEWLINE: byte := 0x0A

  /** `static_cast<int64_t>` of a `uint64_t`: the two's-complement reading of the same 64 bits. */
  function ToInt64(x: u64): (r: int64)
    ensures (r - x) % TWO_TO_THE_64 == 0
    ensures r >= 0 <==> x < TWO_TO_THE_63
  {
    if x < TWO_TO_THE_63 then x else x - TWO_TO_THE_64
  }

  /** Assigning an `int64_t` to a `uint64_t`: reduction modulo 2^64. */
  function ToUint64(x: int64): (r: u64)
    ensures (r - x) % TWO_TO_THE_64 == 0
  {
    if x >= 0 then x else x + TWO_TO_THE_64
  }

  /** The cast pair used by the structured codec is the identity on every `uint64_t`, including values of 2^63 and above. */
  lemma CastRoundTrip(x: u64)
    ensures ToUint64(ToInt64(x)) == x
  {
  }

  /** `uint64_t` increment, which wraps from 2^64 - 1 to 0. */
  function Increment(x: u64): (r: u64)
    ensures (r - x - 1) % TWO_TO_THE_64 == 0
    ensures x < TWO_TO_THE_64 - 1 ==> r > x
  {
    if x == TWO_TO_THE_64 - 1 then 0 else x + 1
  }

  /** `uint64_t` decrement, which wraps from 0 to 2^64 - 1: the value `Increment` moved on from. */
  function Decrement(x: u64): (r: u64)
    ensures Increment(r) == x
  {
    if x == 0 then TWO_TO_THE_64 - 1 else x - 1
  }

  /** Decrementing undoes an increment. */
  lemma DecrementIncrement(x: u64)
    ensures Decrement(Increment(x)) == x
  {
  }

  /**
   * `std::map::emplace` / `std::unordered_map::emplace`: inserts the pair only
   * when the key is absent; an existing entry is left in place.
   */
  function Emplace<K(!new), V>(m: map<K, V>, k: K, v: V): (r: map<K, V>)
    ensures k in r && r[k] == (if k in m then m[k] else v)
    ensures forall j :: j != k ==> (j in r <==> j in m)
    ensures forall j :: j in m ==> j in r && r[j] == m[j]
  {
    if k in m then m else m[k := v]
  }
}

=== FILE: server.dfy ===
/**
 * The chat hub of src/server.cc: the message log with its id counter, the
 * table of connected users, the broadcast every new message goes through,
 * the three callbacks each connection registers and the per-connection
 * serve loop.  The server's threads and locks are not modelled: each
 * operation runs to completion on its own.
 */
module ChatServer {
  import opened Wrappers
  import opened Scalars
  import opened MessageTypes
  import opened Messages
  import opened StructuredCodec
  import opened Network

  // ---------------------------------------------------------------------------
  // The message log and REQUEST_HISTORY

  /** `Messages`: the history, ordered by message id. */
  type Log = map<u64, ChatMessage>

  /** Every entry is stored under its own id. */
  predicate IdsMatch(log: Log)
  {
    forall k :: k in log ==> log[k].messageId == k
  }

  /** The log holds exactly the ids below `c`. */
  predicate Dense(log: Log, c: nat)
  {
    forall k: u64 :: k in log <==> k < c
  }

  /** Every entry of `older` is still in `newer`, unchanged. */
  predicate Extends(newer: Log, older: Log)
  {
    forall k :: k in older ==> k in newer && newer[k] == older[k]
  }

  lemma ExtendsTransitive(a: Log, b: Log, c: Log)
    requires Extends(b, a) && Extends(c, b)
    ensures Extends(c, a)
  {
  }

  /** The log facts `Valid` keeps, for a log of `count` messages. */
  predicate LogValid(log: Log, count: nat)
  {
    Dense(log, count) && IdsMatch(log) && forall k :: k in log ==> Encodable(log[k])
  }

  /**
   * Storing the next message with `emplace` keeps the log valid: before the
   * counter wraps its id is new and it is added; after it, the id is taken
   * and the log stays as it was.
   */
  lemma StoreKeepsLogValid(log: Log, count: nat, m: ChatMessage)
    requires LogValid(log, count) && Encodable(m) && m.messageId as int == count % TWO_TO_THE_64
    ensures LogValid(Emplace(log, m.messageId, m), count + 1)
    ensures count < TWO_TO_THE_64 ==> m.messageId !in log && Emplace(log, m.messageId, m) == log[m.messageId := m]
    ensures count >= TWO_TO_THE_64 ==> Emplace(log, m.messageId, m) == log
  {
    if count >= TWO_TO_THE_64 {
      assert m.messageId in log;
    }
  }

  /** `std::map::lower_bound`: the least id in the log that is not below `k`, if any. */
  function LowerBound(log: Log, k: nat): (r: Option<u64>)
    decreases TWO_TO_THE_64 - k
    ensures r.Some? ==> r.value in log && k <= r.value
    ensures forall j: u64 :: k <= j && j in log ==> r.Some? && r.value <= j
  {
    if k >= TWO_TO_THE_64 then None
    else if k as u64 in log then Some(k as u64)
    else LowerBound(log, k + 1)
  }

  /** Advancing a map iterator at `k`: the next id up, or the end. */
  function Next(log: Log, k: u64): (r: Option<u64>)
  {
    LowerBound(log, k + 1)
  }

  /** What the REQUEST_HISTORY loop collects from iterator position `pos` when `n` more entries are wanted. */
  function HistoryFrom(log: Log, pos: Option<u64>, n: nat): seq<ChatMessage>
    requires pos.Some? ==> pos.value in log
    decreases n
  {
    if n == 0 || pos.None? then []
    else [log[pos.value]] + HistoryFrom(log, Next(log, pos.value), n - 1)
  }

  /** One iteration of the REQUEST_HISTORY loop takes the entry at the iterator and advances it. */
  lemma HistoryFromStep(log: Log, pos: Option<u64>, n: nat)
    requires pos.Some? && pos.value in log && n > 0
    ensures forall h: seq<ChatMessage> {:trigger h + HistoryFrom(log, pos, n)} ::
      h + HistoryFrom(log, pos, n) == (h + [log[pos.value]]) + HistoryFrom(log, Next(log, pos.value), n - 1)
  {
  }

  /** The reply to REQUEST_HISTORY(start, n). */
  function History(log: Log, start: u64, n: u64): seq<ChatMessage>
  {
    HistoryFrom(log, LowerBound(log, start), n)
  }

  /** Every entry of `r` is the log's entry under its own id. */
  predicate FromLog(log: Log, r: seq<ChatMessage>)
  {
    forall i :: 0 <= i < |r| ==> r[i].messageId in log && log[r[i].messageId] == r[i]
  }

  /** The ids of `r` strictly ascend. */
  predicate Ascending(r: seq<ChatMessage>)
  {
    forall i, j :: 0 <= i < j < |r| ==> r[i].messageId < r[j].messageId
  }

  /** Every logged id from `lo` up to the last id of `r` has its entry in `r`, and every logged id from `lo` on when `r` is not `full`. */
  predicate NoneSkipped(log: Log, lo: nat, r: seq<ChatMessage>, full: bool)
  {
    forall k: u64 :: k in log && lo <= k && (!full || (|r| > 0 && k <= r[|r| - 1].messageId)) ==> log[k] in r
  }

  /** A history from `pos` holds at most `n` entries of the log, starting with the one at `pos`. */
  lemma {:induction false} HistoryFromEntries(log: Log, pos: Option<u64>, n: nat)
    requires IdsMatch(log)
    requires pos.Some? ==> pos.value in log
    decreases n
    ensures var r := HistoryFrom(log, pos, n);
      && |r| <= n
      && (pos.None? ==> r == [])
      && (|r| > 0 ==> r[0].messageId == pos.value)
      && FromLog(log, r)
  {
    if n != 0 && pos.Some? {
      var rest := HistoryFrom(log, Next(log, pos.value), n - 1);
      HistoryFromEntries(log, Next(log, pos.value), n - 1);
      var r := HistoryFrom(log, pos, n);
      assert r == [log[pos.value]] + rest;
      forall i | 1 <= i < |r| ensures r[i].messageId in log && log[r[i].messageId] == r[i]
      {
        assert r[i] == rest[i - 1];
      }
    }
  }

  /** A history from `pos` lists ids in strictly ascending order. */
  lemma {:induction false} HistoryFromAscending(log: Log, pos: Option<u64>, n: nat)
    requires IdsMatch(log)
    requires pos.Some? ==> pos.value in log
    decreases n
    ensures Ascending(HistoryFrom(log, pos, n))
  {
    if n != 0 && pos.Some? {
      var p := pos.value;
      var rest := HistoryFrom(log, Next(log, p), n - 1);
      HistoryFromAscending(log, Next(log, p), n - 1);
      HistoryFromEntries(log, Next(log, p), n - 1);
      var r := HistoryFrom(log, pos, n);
      assert r == [log[p]] + rest;
      forall i, j | 0 <= i < j < |r| ensures r[i].messageId < r[j].messageId
      {
        assert r[j] == rest[j - 1];
        if i > 0 {
          assert r[i] == rest[i - 1];
        } else {
          assert rest[0].messageId == Next(log, p).value;
          assert rest[0].messageId <= rest[j - 1].messageId;
        }
      }
    }
  }

  /** A history from `pos` skips no logged id from `pos` on. */
  lemma {:induction false} HistoryFromComplete(log: Log, pos: Option<u64>, n: nat)
    requires IdsMatch(log)
    requires pos.Some? && pos.value in log
    decreases n
    ensures var r := HistoryFrom(log, pos, n);
      NoneSkipped(log, pos.value, r, |r| == n)
  {
    var p := pos.value;
    var r := HistoryFrom(log, pos, n);
    if n != 0 {
      var next := Next(log, p);
      var rest := HistoryFrom(log, next, n - 1);
      assert r == [log[p]] + rest;
      HistoryFromEntries(log, next, n - 1);
      if next.Some? {
        HistoryFromComplete(log, next, n - 1);
      }
      forall k: u64 | k in log && p <= k && (|r| < n || (|r| > 0 && k <= r[|r| - 1].messageId))
        ensures log[k] in r
      {
        if k != p {
          assert next.Some? && next.value <= k;
          if rest == [] {
            assert false;
          }
          assert r[|r| - 1] == rest[|rest| - 1];
          assert log[k] in rest;
        }
      }
    }
  }

  /**
   * The REQUEST_HISTORY reply holds at most `n` entries, all from the log, with
   * ids at or above `start` in strictly ascending order; it skips no entry:
   * every logged id from `start` up to the last one returned is in it, and
   * when fewer than `n` came back, every logged id from `start` on is.
   */
  lemma HistorySpec(log: Log, start: u64, n: u64)
    requires IdsMatch(log)
    ensures var r := History(log, start, n);
      && |r| <= n
      && (forall i :: 0 <= i < |r| ==> start <= r[i].messageId && r[i].messageId in log && log[r[i].messageId] == r[i])
      && (forall i, j :: 0 <= i < j < |r| ==> r[i].messageId < r[j].messageId)
      && (forall k: u64 :: k in log && start <= k && (|r| < n || (|r| > 0 && k <= r[|r| - 1].messageId)) ==> log[k] in r)
  {
    var pos := LowerBound(log, start);
    var r := History(log, start, n);
    HistoryFromEntries(log, pos, n);
    HistoryFromAscending(log, pos, n);
    if pos.Some? {
      HistoryFromComplete(log, pos, n);
    }
    forall i | 0 <= i < |r| ensures start <= r[i].messageId
    {
      assert r[0].messageId == pos.value;
      if i > 0 {
        assert r[0].messageId < r[i].messageId;
      }
    }
  }

  /** In a log holding exactly the ids below `c`, lower_bound(k) is k itself when k is below `c`, and the end otherwise. */
  lemma DenseLowerBound(log: Log, c: nat, k: nat)
    requires Dense(log, c)
    ensures LowerBound(log, k) == if k < c && k < TWO_TO_THE_64 then Some(k as u64) else None
  {
    if k < c && k < TWO_TO_THE_64 {
      assert k as u64 in log;
    }
  }

  /**
   * In a log holding exactly the ids below `c`, the history from `p` is the
   * run of consecutive ids p, p + 1, ... up to `n` of them or up to `c`.
   */
  lemma {:induction false} DenseHistoryFrom(log: Log, c: nat, p: u64, n: nat)
    requires Dense(log, c) && IdsMatch(log) && p < c
    decreases n
    ensures var r := HistoryFrom(log, Some(p), n);
      && |r| == Min(n, Min(c, TWO_TO_THE_64) - p)
      && forall i :: 0 <= i < |r| ==> r[i].messageId == p + i
  {
    if n != 0 {
      var r := HistoryFrom(log, Some(p), n);
      var next := Next(log, p);
      DenseLowerBound(log, c, p + 1);
      if next.Some? {
        DenseHistoryFrom(log, c, p + 1, n - 1);
        var rest := HistoryFrom(log, next, n - 1);
        assert r == [log[p]] + rest;
        forall i | 1 <= i < |r| ensures r[i].messageId == p + i
        {
          assert r[i] == rest[i - 1];
        }
      }
    }
  }

  function Min(a: int, b: int): int
  {
    if a <= b then a else b
  }

  /** With ids 0 .. c - 1 logged, REQUEST_HISTORY(start, n) returns ids start, start + 1, ... : min(n, c - start) of them. */
  lemma DenseHistory(log: Log, c: nat, start: u64, n: u64)
    requires Dense(log, c) && IdsMatch(log)
    ensures var r := History(log, start, n);
      && |r| == (if start < c then Min(n, Min(c, TWO_TO_THE_64) - start) else 0)
      && forall i :: 0 <= i < |r| ==> r[i].messageId == start + i
  {
    DenseLowerBound(log, c, start);
    if start < c {
      DenseHistoryFrom(log, c, start, n);
    }
  }

  /** Ten messages logged: asking for four from id 3 returns ids 3, 4, 5, 6; asking from id 20 returns nothing. */
  lemma HistoryExample(log: Log)
    requires Dense(log, 10) && IdsMatch(log)
    ensures |History(log, 3, 4)| == 4
    ensures forall i :: 0 <= i < 4 ==> History(log, 3, 4)[i].messageId == 3 + i
    ensures History(log, 20, 4) == []
  {
    DenseHistory(log, 10, 3, 4);
    DenseHistory(log, 10, 20, 4);
  }

  // ---------------------------------------------------------------------------
  // Encodability of what the server sends

  /** The categories the server creates messages with, which every encoder accepts. */
  predicate Encodable(m: ChatMessage)
  {
    m.category == CHAT_MESSAGE || m.category == NOTICE
  }

  predicate AllEncodable(messages: seq<ChatMessage>)
  {
    forall i :: 0 <= i < |messages| ==> Encodable(messages[i])
  }

  /** A list of server-created messages encodes as a JSON array. */
  lemma {:induction false} EntriesEncode(messages: seq<ChatMessage>)
    requires AllEncodable(messages)
    ensures EncodeEntries(messages).Some?
  {
    if messages != [] {
      var init := messages[..|messages| - 1];
      assert AllEncodable(init) by {
        forall i | 0 <= i < |init| ensures Encodable(init[i])
        {
          assert init[i] == messages[i];
        }
      }
      EntriesEncode(init);
      assert Encodable(messages[|messages| - 1]);
    }
  }

  /** Frames of server-created messages and histories always exist in both modes: sending them never throws. */
  lemma ServerFramesExist(mode: Mode, json: JsonText, m: ChatMessage, history: seq<ChatMessage>)
    requires Encodable(m) && AllEncodable(history)
    ensures Frame(mode, json, ReceiveMessage(m)).Some?
    ensures Frame(mode, json, ReceiveHistory(history)).Some?
  {
    EntriesEncode(history);
  }

  /** `c`'s output gained exactly the frame carrying `m`. */
  predicate SentOne(c: Connection<Handler>, before: Bytes, after: Bytes, m: Message)
  {
    Frame(c.mode, c.json, m).Some? && after == before + Frame(c.mode, c.json, m).value
  }

  // ---------------------------------------------------------------------------
  // Users and the server

  /** Erasing a key just emplaced leaves the table as it was without that key. */
  lemma EraseAfterEmplace<K(!new), V>(m: map<K, V>, k: K, v: V)
    ensures Emplace(m, k, v) - {k} == m - {k}
  {
  }

  /** The callbacks `Server::serve` registers: one per kind a client sends. */
  datatype Handler = OnIdentify | OnSendMessage | OnRequestHistory

  /** The table the three `on` calls leave on a fresh connection. */
  function ServerCallbacks(): map<MessageType, Handler>
  {
    map[IDENTIFY := OnIdentify, SEND_MESSAGE := OnSendMessage, REQUEST_HISTORY := OnRequestHistory]
  }

  /** Whether a poll outcome runs a callback that logs a message: IDENTIFY (a notice) or SEND_MESSAGE (a chat message). */
  predicate Logs(outcome: PollOutcome<Handler>)
  {
    outcome.Dispatched? && outcome.handler != OnRequestHistory
  }

  /** How many log entries the callbacks of a session add. */
  function Logged(trace: seq<PollOutcome<Handler>>): (r: nat)
    ensures r <= |trace|
  {
    if trace == [] then 0
    else Logged(trace[..|trace| - 1]) + (if Logs(trace[|trace| - 1]) then 1 else 0)
  }

  /** The display name after a session: the name of the last IDENTIFY dispatched, or `name` when there was none. */
  function FinalName(name: Bytes, trace: seq<PollOutcome<Handler>>): Bytes
  {
    if trace == [] then name
    else
      var outcome := trace[|trace| - 1];
      if outcome.Dispatched? && outcome.message.Identify? then outcome.message.displayName
      else FinalName(name, trace[..|trace| - 1])
  }

  /** What one more outcome adds to a session's log count and display name. */
  lemma TraceSnoc(name: Bytes, trace: seq<PollOutcome<Handler>>, outcome: PollOutcome<Handler>)
    ensures Logged(trace + [outcome]) == Logged(trace) + (if Logs(outcome) then 1 else 0)
    ensures FinalName(name, trace + [outcome]) ==
      if outcome.Dispatched? && outcome.message.Identify? then outcome.message.displayName
      else FinalName(name, trace)
  {
    assert (trace + [outcome])[..|trace|] == trace;
  }

  lemma SnocAssoc<T>(a: seq<T>, x: T, b: seq<T>)
    ensures a + ([x] + b) == (a + [x]) + b
  {
  }

  /** The last bytes written to `c` are the frame carrying `m`. */
  predicate LastSent(c: Connection<Handler>, m: Message)
    reads c
  {
    && Frame(c.mode, c.json, m).Some?
    && |Frame(c.mode, c.json, m).value| <= |c.output|
    && c.output[|c.output| - |Frame(c.mode, c.json, m).value|..] == Frame(c.mode, c.json, m).value
  }

  /** A frame just appended is the last thing written. */
  lemma SentIsLast(c: Connection<Handler>, before: Bytes, m: Message)
    requires SentOne(c, before, c.output, m)
    ensures LastSent(c, m)
  {
    var frame := Frame(c.mode, c.json, m).value;
    assert c.output[|c.output| - |frame|..] == frame;
  }

  class User {
    /** The peer's host and port, which keys the users table. */
    const address: Bytes
    var displayName: Bytes
    const connection: Connection<Handler>

    /** A user starts out named by its address. */
    constructor (address: Bytes, connection: Connection<Handler>)
      ensures this.address == address && displayName == address && this.connection == connection
    {
      this.address := address;
      displayName := address;
      this.connection := connection;
    }
  }

  class Server {
    /** `next_id_`: the id the next message gets. */
    var nextId: u64
    /** `messages_`. */
    var messages: Log
    /** `users_`: the connected users by address. */
    var users: map<Bytes, User>
    /** How many messages have been added, beyond the wrap of `nextId`. */
    ghost var added: nat

    /**
     * The id counter is the number of messages added, modulo 2^64; the log
     * holds exactly the ids below that number (all of them once it has
     * wrapped), each message under its own id and with a category every
     * encoder accepts; each user is filed under its address, and no two
     * users share a connection.
     */
    ghost predicate Valid()
      reads this
    {
      && nextId == added % TWO_TO_THE_64
      && LogValid(messages, added)
      && (forall a :: a in users ==> users[a].address == a)
      && DistinctConnections()
    }

    /** No two users share a connection. */
    ghost predicate DistinctConnections()
      reads this
    {
      forall a, b :: a in users && b in users && a != b ==> users[a].connection != users[b].connection
    }

    /** The connections of all current users. */
    ghost function Connections(): set<Connection<Handler>>
      reads this
    {
      set a | a in users :: users[a].connection
    }

    constructor ()
      ensures Valid()
      ensures nextId == 0 && messages == map[] && users == map[] && added == 0
    {
      nextId := 0;
      messages := map[];
      users := map[];
      added := 0;
    }

    /**
     * The effect of `addMessage(m)`: `m` got the id that `next_id_` held,
     * the counter moved on, the message went to every user's connection,
     * and it was stored unless its id was already taken.
     */
    twostate predicate Appended(m: ChatMessage)
      reads this, Connections()
    {
      && m.messageId == old(nextId)
      && nextId == Increment(old(nextId))
      && added == old(added) + 1
      && messages == Emplace(old(messages), m.messageId, m)
      && users == old(users)
      && (forall a :: a in users ==> SentOne(users[a].connection, old(users[a].connection.output), users[a].connection.output, ReceiveMessage(m)))
      && (forall a :: a in users ==> users[a].connection.input == old(users[a].connection.input))
      && (forall a :: a in users ==> users[a].connection.callbacks == old(users[a].connection.callbacks))
    }

    /**
     * What the callback for a dispatched message did to the log and to the
     * requester: IDENTIFY logs the rename notice under the name the user had,
     * SEND_MESSAGE logs the text under that name, REQUEST_HISTORY leaves the
     * log alone and answers the requester with the selected entries.
     */
    twostate predicate Handled(user: User, outcome: PollOutcome<Handler>)
      reads this, user, user.connection
    {
      outcome.Dispatched? ==>
        match outcome.handler
        case OnIdentify =>
          && outcome.message.Identify?
          && messages == Emplace(old(messages), old(nextId), ChatMessage(old(nextId), NOTICE, [], old(user.displayName) + Str(" is now known as ") + outcome.message.displayName + Str(".")))
        case OnSendMessage =>
          && outcome.message.SendMessage?
          && messages == Emplace(old(messages), old(nextId), ChatMessage(old(nextId), CHAT_MESSAGE, old(user.displayName), outcome.message.text))
        case OnRequestHistory =>
          && outcome.message.RequestHistory?
          && messages == old(messages)
          && nextId == old(nextId)
          && SentOne(user.connection, old(user.connection.output), user.connection.output, ReceiveHistory(History(messages, outcome.message.startId, outcome.message.numMessages)))
    }

    /** The loop of `addMessage` that forwards `m` to every connected user. */
    method Broadcast(m: ChatMessage)
      requires DistinctConnections() && Encodable(m)
      modifies Connections()
      ensures forall a :: a in users ==> SentOne(users[a].connection, old(users[a].connection.output), users[a].connection.output, ReceiveMessage(m))
      ensures forall a :: a in users ==> users[a].connection.input == old(users[a].connection.input)
      ensures forall a :: a in users ==> users[a].connection.callbacks == old(users[a].connection.callbacks)
    {
      var pending := users.Keys;
      while pending != {}
        invariant pending <= users.Keys
        invariant forall a :: a in users && a !in pending ==>
          SentOne(users[a].connection, old(users[a].connection.output), users[a].connection.output, ReceiveMessage(m))
        invariant forall a :: a in pending ==> users[a].connection.output == old(users[a].connection.output)
        invariant forall a :: a in users ==> users[a].connection.input == old(users[a].connection.input)
        invariant forall a :: a in users ==> users[a].connection.callbacks == old(users[a].connection.callbacks)
        decreases |pending|
      {
        var a :| a in pending;
        var c := users[a].connection;
        ServerFramesExist(c.mode, c.json, m, []);
        var _ := c.Send(ReceiveMessage(m));
        pending := pending - {a};
      }
    }

    /**
     * `addMessage`: stamps the message with the next id, advances the counter
     * (wrapping after 2^64 messages), forwards it to every user and stores it.
     * Before the counter wraps the id is new and the message is stored; after
     * it, the id is taken and the log stays as it was.
     */
    method AddMessage(message: ChatMessage) returns (id: u64)
      requires Valid() && Encodable(message)
      modifies this, Connections()
      ensures Valid()
      ensures id == old(nextId)
      ensures Appended(message.(messageId := id))
      ensures old(added) < TWO_TO_THE_64 ==> id !in old(messages) && messages == old(messages)[id := message.(messageId := id)]
      ensures old(added) >= TWO_TO_THE_64 ==> messages == old(messages)
    {
      id := nextId;
      var stored := message.(messageId := id);
      nextId := Increment(nextId);
      added := added + 1;
      Broadcast(stored);
      StoreKeepsLogValid(messages, old(added), stored);
      messages := Emplace(messages, id, stored);
    }

    /** `notify`: a NOTICE with no sender. */
    method Notify(text: Bytes)
      requires Valid()
      modifies this, Connections()
      ensures Valid()
      ensures Appended(ChatMessage(old(nextId), NOTICE, [], text))
    {
      var _ := AddMessage(ChatMessage(0, NOTICE, [], text));
    }

    /** `send`: a CHAT_MESSAGE from `sender`. */
    method Send(sender: Bytes, text: Bytes)
      requires Valid()
      modifies this, Connections()
      ensures Valid()
      ensures Appended(ChatMessage(old(nextId), CHAT_MESSAGE, sender, text))
    {
      var _ := AddMessage(ChatMessage(0, CHAT_MESSAGE, sender, text));
    }

    /** The IDENTIFY callback: renames the user and announces the new name. */
    method HandleIdentify(user: User, name: Bytes)
      requires Valid()
      modifies this, Connections(), user
      ensures Valid()
      ensures user.displayName == name
      ensures Appended(ChatMessage(old(nextId), NOTICE, [], old(user.displayName) + Str(" is now known as ") + name + Str(".")))
    {
      var oldName := user.displayName;
      user.displayName := name;
      Notify(oldName + Str(" is now known as ") + name + Str("."));
    }

    /** The SEND_MESSAGE callback: posts the text under the user's current name. */
    method HandleSendMessage(user: User, text: Bytes)
      requires Valid()
      modifies this, Connections()
      ensures Valid()
      ensures Appended(ChatMessage(old(nextId), CHAT_MESSAGE, user.displayName, text))
    {
      Send(user.displayName, text);
    }

    /** The loop of the REQUEST_HISTORY callback: walks the log from lower_bound(start) while fewer than `n` are collected. */
    method CollectHistory(start: u64, n: u64) returns (history: seq<ChatMessage>)
      ensures history == History(messages, start, n)
    {
      history := [];
      var i := LowerBound(messages, start);
      while |history| < n && i.Some?
        invariant |history| <= n
        invariant i.Some? ==> i.value in messages
        invariant history + HistoryFrom(messages, i, n - |history|) == History(messages, start, n)
        decreases n - |history|
      {
        HistoryFromStep(messages, i, n - |history|);
        history, i := history + [messages[i.value]], Next(messages, i.value);
      }
    }

    /** The REQUEST_HISTORY callback: replies to the requesting user alone, with the history it asked for. */
    method HandleRequestHistory(user: User, start: u64, n: u64)
      requires Valid()
      modifies user.connection
      ensures SentOne(user.connection, old(user.connection.output), user.connection.output, ReceiveHistory(History(messages, start, n)))
      ensures user.connection.input == old(user.connection.input)
      ensures user.connection.callbacks == old(user.connection.callbacks)
    {
      var history := CollectHistory(start, n);
      HistorySpec(messages, start, n);
      assert AllEncodable(history);
      ServerFramesExist(user.connection.mode, user.connection.json, DefaultChatMessage, history);
      var _ := user.connection.Send(ReceiveHistory(history));
    }

    /** `users_.emplace(address, &user)`: files the user unless its address is taken. */
    method File(user: User)
      requires Valid() && user.connection !in Connections()
      modifies this
      ensures Valid()
      ensures users == Emplace(old(users), user.address, user)
      ensures nextId == old(nextId) && messages == old(messages) && added == old(added)
    {
      users := Emplace(users, user.address, user);
    }

    /**
     * The part of `serve` before polling: announces the connection, performs
     * the handshake, files the user under its address (unless that address is
     * already taken) and registers the three callbacks.  The announcement comes
     * before the user is filed, so it goes to the others only.  A handshake
     * that names no mode is answered with "Invalid connection type." and
     * yields no user.
     */
    method Connect(address: Bytes, json: JsonText, transport: Bytes) returns (user: User?, reply: Bytes)
      requires Valid()
      modifies this, Connections()
      ensures Valid()
      ensures user == null <==> ParseMode(SplitLine(transport).text).None?
      ensures added == old(added) + 1
      ensures messages == Emplace(old(messages), old(nextId), ChatMessage(old(nextId), NOTICE, [], address + Str(" has connected.")))
      ensures Extends(messages, old(messages))
      ensures old(added) < TWO_TO_THE_64 ==>
        old(nextId) in messages && messages[old(nextId)] == ChatMessage(old(nextId), NOTICE, [], address + Str(" has connected."))
      ensures user == null ==> reply == Str("Invalid connection type.") && users == old(users)
      ensures user != null ==>
        && fresh(user) && fresh(user.connection) && reply == []
        && user.address == address && user.displayName == address
        && user.connection.mode == ParseMode(SplitLine(transport).text).value
        && user.connection.json == json
        && user.connection.input == SplitLine(transport).rest
        && user.connection.callbacks == ServerCallbacks()
        && user.connection.output == []
        && users == Emplace(old(users), address, user)
      ensures var notice := ChatMessage(old(nextId), NOTICE, [], address + Str(" has connected."));
        forall a :: a in old(users) ==>
          && a in users && users[a] == old(users[a])
          && SentOne(users[a].connection, old(users[a].connection.output), users[a].connection.output, ReceiveMessage(notice))
          && users[a].connection.input == old(users[a].connection.input)
          && users[a].connection.callbacks == old(users[a].connection.callbacks)
    {
      if added < TWO_TO_THE_64 {
        NextIdIsFree(this);
      }
      Notify(address + Str(" has connected."));
      user, reply := Admit(address, json, transport);
    }

    /** The handshake, the filing of the user and the registration of its callbacks; the log is not touched. */
    method Admit(address: Bytes, json: JsonText, transport: Bytes) returns (user: User?, reply: Bytes)
      requires Valid()
      modifies this
      ensures Valid()
      ensures nextId == old(nextId) && messages == old(messages) && added == old(added)
      ensures user == null <==> ParseMode(SplitLine(transport).text).None?
      ensures user == null ==> reply == Str("Invalid connection type.") && users == old(users)
      ensures user != null ==>
        && fresh(user) && fresh(user.connection) && reply == []
        && user.address == address && user.displayName == address
        && user.connection.mode == ParseMode(SplitLine(transport).text).value
        && user.connection.json == json
        && user.connection.input == SplitLine(transport).rest
        && user.connection.callbacks == ServerCallbacks()
        && user.connection.output == []
        && users == Emplace(old(users), address, user)
    {
      var c: Connection?<Handler>;
      c, reply := Connection.Accept(json, transport);
      if c == null {
        user := null;
        return;
      }
      user := new User(address, c);
      File(user);
      c.On(IDENTIFY, OnIdentify);
      c.On(SEND_MESSAGE, OnSendMessage);
      c.On(REQUEST_HISTORY, OnRequestHistory);
    }

    /**
     * The polling loop of `serve`: polls the user's connection and runs the
     * callback each dispatched message is for, until a poll ends the
     * connection.  The outcomes are those PollTrace gives for the input the
     * connection had; each IDENTIFY and SEND_MESSAGE callback logs one
     * message, IDENTIFY leaves its name as the display name, and no log
     * entry is ever rewritten.
     */
    method Session(user: User) returns (trace: seq<PollOutcome<Handler>>)
      requires Valid()
      requires user.connection.callbacks == ServerCallbacks()
      modifies this, Connections(), user, user.connection
      ensures Valid()
      ensures users == old(users)
      ensures trace == PollTrace(user.connection.mode, user.connection.json, old(user.connection.input), ServerCallbacks())
      ensures added == old(added) + Logged(trace)
      ensures user.displayName == FinalName(old(user.displayName), trace)
      ensures Extends(messages, old(messages))
      ensures user.connection.callbacks == ServerCallbacks()
      ensures forall a :: a in users && users[a].connection != user.connection ==>
        users[a].connection.input == old(users[a].connection.input) && users[a].connection.callbacks == old(users[a].connection.callbacks)
    {
      var c := user.connection;
      ghost var full := PollTrace(c.mode, c.json, c.input, ServerCallbacks());
      trace := [];
      while true
        invariant Valid()
        invariant users == old(users)
        invariant full == trace + PollTrace(c.mode, c.json, c.input, ServerCallbacks())
        invariant added == old(added) + Logged(trace)
        invariant user.displayName == FinalName(old(user.displayName), trace)
        invariant Extends(messages, old(messages))
        invariant c.callbacks == ServerCallbacks()
        invariant forall a :: a in users && users[a].connection != c ==>
          users[a].connection.input == old(users[a].connection.input) && users[a].connection.callbacks == old(users[a].connection.callbacks)
        decreases |c.input|
      {
        ghost var before, log := c.input, messages;
        var outcome := PollOnce(user);
        TraceSnoc(old(user.displayName), trace, outcome);
        ExtendsTransitive(old(messages), log, messages);
        if !outcome.Continues() {
          trace := trace + [outcome];
          return;
        }
        assert full == (trace + [outcome]) + PollTrace(c.mode, c.json, c.input, ServerCallbacks()) by {
          PollTraceStep(c.mode, c.json, before, ServerCallbacks());
          SnocAssoc(trace, outcome, PollTrace(c.mode, c.json, c.input, ServerCallbacks()));
        }
        trace := trace + [outcome];
      }
    }

    /** One `poll` of the user's connection, together with the callback it runs for a dispatched message. */
    method PollOnce(user: User) returns (outcome: PollOutcome<Handler>)
      requires Valid()
      requires user.connection.callbacks == ServerCallbacks()
      modifies this, Connections(), user, user.connection
      ensures Valid()
      ensures users == old(users)
      ensures (outcome, user.connection.input) == PollSpec(user.connection.mode, user.connection.json, old(user.connection.input), ServerCallbacks())
      ensures outcome.Continues() ==> |user.connection.input| < |old(user.connection.input)|
      ensures added == old(added) + (if Logs(outcome) then 1 else 0)
      ensures user.displayName == (if outcome.Dispatched? && outcome.message.Identify? then outcome.message.displayName else old(user.displayName))
      ensures Extends(messages, old(messages))
      ensures user.connection.callbacks == ServerCallbacks()
      ensures Handled(user, outcome)
      ensures forall a :: a in users && users[a].connection != user.connection ==>
        users[a].connection.input == old(users[a].connection.input) && users[a].connection.callbacks == old(users[a].connection.callbacks)
    {
      var c := user.connection;
      ghost var before := c.input;
      outcome := c.Poll();
      PollConsumes(c.mode, c.json, before, c.callbacks);
      if outcome.Dispatched? {
        assert TypeOf(outcome.message) in ServerCallbacks() && ServerCallbacks()[TypeOf(outcome.message)] == outcome.handler by {
          DispatchOnlyAfterDecode(c.mode, c.json, before, c.callbacks);
        }
        Run(user, outcome);
      }
    }

    /** Runs the callback a dispatched message is for; the user's connection keeps its input and callbacks. */
    method Run(user: User, outcome: PollOutcome<Handler>)
      requires Valid()
      requires outcome.Dispatched?
      requires TypeOf(outcome.message) in ServerCallbacks() && ServerCallbacks()[TypeOf(outcome.message)] == outcome.handler
      modifies this, Connections(), user, user.connection
      ensures Valid()
      ensures users == old(users)
      ensures added == old(added) + (if Logs(outcome) then 1 else 0)
      ensures user.displayName == (if outcome.message.Identify? then outcome.message.displayName else old(user.displayName))
      ensures Extends(messages, old(messages))
      ensures user.connection.input == old(user.connection.input)
      ensures user.connection.callbacks == old(user.connection.callbacks)
      ensures forall a :: a in users ==> users[a].connection.input == old(users[a].connection.input) && users[a].connection.callbacks == old(users[a].connection.callbacks)
      ensures Handled(user, outcome)
      ensures outcome.handler == OnIdentify ==>
        Appended(ChatMessage(old(nextId), NOTICE, [], old(user.displayName) + Str(" is now known as ") + outcome.message.displayName + Str(".")))
      ensures outcome.handler == OnSendMessage ==>
        Appended(ChatMessage(old(nextId), CHAT_MESSAGE, old(user.displayName), outcome.message.text))
    {
      var m := outcome.message;
      match outcome.handler
      case OnIdentify =>
        assert m.Identify?;
        HandleIdentify(user, m.displayName);
      case OnSendMessage =>
        assert m.SendMessage?;
        HandleSendMessage(user, m.text);
      case OnRequestHistory =>
        assert m.RequestHistory?;
        HandleRequestHistory(user, m.startId, m.numMessages);
    }

    /** The part of `serve` after polling: erases the user's address and announces the disconnection under the user's current name. */
    method Disconnect(user: User)
      requires Valid()
      requires forall a :: a in users && a != user.address ==> users[a].connection != user.connection
      modifies this, Connections()
      ensures Valid()
      ensures user.connection.output == old(user.connection.output)
      ensures users == old(users) - {user.address}
      ensures forall a :: a in users ==> users[a].connection.input == old(users[a].connection.input) && users[a].connection.callbacks == old(users[a].connection.callbacks)
      ensures var notice := ChatMessage(old(nextId), NOTICE, [], user.displayName + Str(" forcefully disconnected (an exception was thrown)."));
        && nextId == Increment(old(nextId))
        && added == old(added) + 1
        && messages == Emplace(old(messages), old(nextId), notice)
        && (forall a :: a in users ==> SentOne(users[a].connection, old(users[a].connection.output), users[a].connection.output, ReceiveMessage(notice)))
        && (forall a :: a in users ==> LastSent(users[a].connection, ReceiveMessage(notice)))
        && (old(added) < TWO_TO_THE_64 ==> old(nextId) in messages && messages[old(nextId)] == notice)
    {
      if added < TWO_TO_THE_64 {
        NextIdIsFree(this);
      }
      users := users - {user.address};
      Notify(user.displayName + Str(" forcefully disconnected (an exception was thrown)."));
      forall a | a in users
        ensures LastSent(users[a].connection, ReceiveMessage(ChatMessage(old(nextId), NOTICE, [], user.displayName + Str(" forcefully disconnected (an exception was thrown).")))) {
        SentIsLast(users[a].connection, old(users[a].connection.output), ReceiveMessage(ChatMessage(old(nextId), NOTICE, [], user.displayName + Str(" forcefully disconnected (an exception was thrown)."))));
      }
    }

    /**
     * `serve` for one accepted transport from `address`, which will deliver
     * `transport`: connect, poll until the connection ends, disconnect.
     */
    method Serve(address: Bytes, json: JsonText, transport: Bytes) returns (user: User?, reply: Bytes)
      requires Valid()
      modifies this, Connections()
      ensures Valid()
      ensures user == null <==> ParseMode(SplitLine(transport).text).None?
      ensures user == null ==> reply == Str("Invalid connection type.") && users == old(users)
      ensures user != null ==> reply == [] && users == old(users) - {address}
      ensures forall a :: a in users ==> users[a].connection.input == old(users[a].connection.input) && users[a].connection.callbacks == old(users[a].connection.callbacks)
      ensures Extends(messages, old(messages))
      ensures old(added) < TWO_TO_THE_64 ==>
        old(nextId) in messages && messages[old(nextId)] == ChatMessage(old(nextId), NOTICE, [], address + Str(" has connected."))
      ensures user != null ==>
        var trace := PollTrace(user.connection.mode, json, SplitLine(transport).rest, ServerCallbacks());
        var name := FinalName(address, trace);
        var notice := ChatMessage(Decrement(nextId), NOTICE, [], name + Str(" forcefully disconnected (an exception was thrown)."));
        && user.connection.mode == ParseMode(SplitLine(transport).text).value
        && user.connection.json == json
        && user.displayName == name
        && added == old(added) + 2 + Logged(trace)
        && (added <= TWO_TO_THE_64 ==> notice.messageId in messages && messages[notice.messageId] == notice)
        && (forall a :: a in users ==> LastSent(users[a].connection, ReceiveMessage(notice)))
    {
      user, reply := Connect(address, json, transport);
      ghost var joined := messages;
      if user == null {
        return;
      }
      assert forall a :: a in users && a != address ==> users[a].connection != user.connection;
      assert Connections() <= old(Connections()) + {user.connection} by {
        forall a | a in users ensures users[a].connection in old(Connections()) + {user.connection}
        {
          if a != address {
            assert users[a] == old(users)[a];
          }
        }
      }
      Attend(user);
      EraseAfterEmplace(old(users), address, user);
      ExtendsTransitive(old(messages), joined, messages);
    }

    /**
     * The part of `serve` after the callbacks are registered: the session,
     * then the disconnection, announced under the name the session left.
     */
    method Attend(user: User)
      requires Valid()
      requires user.connection.callbacks == ServerCallbacks()
      requires forall a :: a in users && a != user.address ==> users[a].connection != user.connection
      modifies this, Connections(), user, user.connection
      ensures Valid()
      ensures users == old(users) - {user.address}
      ensures forall a :: a in users ==> users[a].connection.input == old(users[a].connection.input) && users[a].connection.callbacks == old(users[a].connection.callbacks)
      ensures Extends(messages, old(messages))
      ensures var trace := PollTrace(user.connection.mode, user.connection.json, old(user.connection.input), ServerCallbacks());
        var name := FinalName(old(user.displayName), trace);
        var notice := ChatMessage(Decrement(nextId), NOTICE, [], name + Str(" forcefully disconnected (an exception was thrown)."));
        && user.displayName == name
        && added == old(added) + 1 + Logged(trace)
        && (added <= TWO_TO_THE_64 ==> notice.messageId in messages && messages[notice.messageId] == notice)
        && (forall a :: a in users ==> LastSent(users[a].connection, ReceiveMessage(notice)))
    {
      var _ := Session(user);
      ghost var polled, id := messages, nextId;
      Disconnect(user);
      DecrementIncrement(id);
      ExtendsTransitive(old(messages), polled, messages);
    }
  }

  /** Before the counter wraps, `next_id_` equals the number of messages added and is not yet in the log. */
  lemma NextIdIsFree(server: Server)
    requires server.Valid() && server.added < TWO_TO_THE_64
    ensures server.nextId as int == server.added && server.nextId !in server.messages
  {
  }

  /**
   * Two renames in a row: a user still named by its address who identifies
   * as "Alice" and then as "Bob" causes the notices
   * "<address> is now known as Alice." and "Alice is now known as Bob.",
   * logged under consecutive ids.
   */
  method RenameTwice(server: Server, user: User)
    requires server.Valid() && user.displayName == user.address
    requires server.added + 2 <= TWO_TO_THE_64
    modifies server, server.Connections(), user
    ensures server.Valid() && user.displayName == Str("Bob")
    ensures var first := old(server.nextId);
      && first + 1 < TWO_TO_THE_64
      && first in server.messages && (first + 1) as u64 in server.messages
      && server.messages[first].text == user.address + Str(" is now known as ") + Str("Alice") + Str(".")
      && server.messages[(first + 1) as u64].text == Str("Alice") + Str(" is now known as ") + Str("Bob") + Str(".")
  {
    NextIdIsFree(server);
    server.HandleIdentify(user, Str("Alice"));
    NextIdIsFree(server);
    server.HandleIdentify(user, Str("Bob"));
  }
}

=== FILE: structured_codec.dfy ===
/**
 * The structured (JSON) form of every message: the ENCODER and DECODER
 * specialisations of src/network.cc.  Unsigned 64-bit fields travel as
 * `int64_t` nodes through a cast pair; a ChatMessage's category travels as
 * its enumerator name, and `sender_name` only for CHAT_MESSAGE.
 */
module StructuredCodec {
  import opened Wrappers
  import opened Scalars
  import opened MessageTypes
  import opened Messages
  import opened DataNodes

  /** ENCODER(RECEIVE_MESSAGE); a category outside the enum reaches the `default` branch, which throws. */
  function EncodeChatMessage(m: ChatMessage): Option<DataNode>
  {
    match m.category
    case CHAT_MESSAGE =>
      Some(Object(map[
        Str("message_id") := Int64(ToInt64(m.messageId)),
        Str("category") := String(Str("CHAT_MESSAGE")),
        Str("sender_name") := String(m.senderName),
        Str("text") := String(m.text)]))
    case NOTICE =>
      Some(Object(map[
        Str("message_id") := Int64(ToInt64(m.messageId)),
        Str("category") := String(Str("NOTICE")),
        Str("text") := String(m.text)]))
    case Undeclared(_) => None
  }

  /**
   * DECODER(RECEIVE_MESSAGE) applied to the message `into`.  Every field it
   * reads must be present with the right node kind, and the category must be
   * one of the two names.  A NOTICE leaves `into`'s sender name untouched.
   */
  function DecodeChatMessageInto(node: DataNode, into: ChatMessage): Option<ChatMessage>
  {
    var id :- Int64Field(node, Str("message_id"));
    var category :- StringField(node, Str("category"));
    if category == Str("CHAT_MESSAGE") then
      var sender :- StringField(node, Str("sender_name"));
      var text :- StringField(node, Str("text"));
      Some(ChatMessage(ToUint64(id), CHAT_MESSAGE, sender, text))
    else if category == Str("NOTICE") then
      var text :- StringField(node, Str("text"));
      Some(ChatMessage(ToUint64(id), NOTICE, into.senderName, text))
    else
      None
  }

  /** Every call site decodes into a freshly constructed message. */
  function DecodeChatMessage(node: DataNode): Option<ChatMessage>
  {
    DecodeChatMessageInto(node, DefaultChatMessage)
  }

  /** The array ENCODER(RECEIVE_HISTORY) builds, one entry per message in order. */
  function EncodeEntries(messages: seq<ChatMessage>): (r: Option<seq<DataNode>>)
    ensures r.Some? ==> |r.value| == |messages|
  {
    if messages == [] then Some([])
    else
      var init :- EncodeEntries(messages[..|messages| - 1]);
      var last :- EncodeChatMessage(messages[|messages| - 1]);
      Some(init + [last])
  }

  /** The list DECODER(RECEIVE_HISTORY) builds, one message per array entry in order. */
  function DecodeEntries(items: seq<DataNode>): (r: Option<seq<ChatMessage>>)
    ensures r.Some? ==> |r.value| == |items|
  {
    if items == [] then Some([])
    else
      var init :- DecodeEntries(items[..|items| - 1]);
      var last :- DecodeChatMessage(items[|items| - 1]);
      Some(init + [last])
  }

  /** `network::encode` for every kind. */
  function Encode(m: Message): Option<DataNode>
  {
    match m
    case Identify(name) => Some(Object(map[Str("display_name") := String(name)]))
    case SendMessage(text) => Some(Object(map[Str("text") := String(text)]))
    case ReceiveMessage(chat) => EncodeChatMessage(chat)
    case RequestHistory(start, count) =>
      Some(Object(map[
        Str("start_id") := Int64(ToInt64(start)),
        Str("num_messages") := Int64(ToInt64(count))]))
    case ReceiveHistory(messages) =>
      var items :- EncodeEntries(messages);
      Some(Array(items))
  }

  /** `network::decode` into a freshly constructed message of kind `t`. */
  function Decode(t: MessageType, node: DataNode): (r: Option<Message>)
    ensures r.Some? ==> TypeOf(r.value) == t
  {
    match t
    case IDENTIFY =>
      var name :- StringField(node, Str("display_name"));
      Some(Identify(name))
    case SEND_MESSAGE =>
      var text :- StringField(node, Str("text"));
      Some(SendMessage(text))
    case RECEIVE_MESSAGE =>
      var chat :- DecodeChatMessage(node);
      Some(ReceiveMessage(chat))
    case REQUEST_HISTORY =>
      var start :- Int64Field(node, Str("start_id"));
      var count :- Int64Field(node, Str("num_messages"));
      Some(RequestHistory(ToUint64(start), ToUint64(count)))
    case RECEIVE_HISTORY =>
      if node.Array? then
        var messages :- DecodeEntries(node.items);
        Some(ReceiveHistory(messages))
      else None
  }

  /** ENCODER(RECEIVE_HISTORY): encodes the entries one by one into an array. */
  method EncodeReceiveHistory(messages: seq<ChatMessage>) returns (r: Option<DataNode>)
    ensures r == Encode(ReceiveHistory(messages))
  {
    var output: seq<DataNode> := [];
    var i := 0;
    while i < |messages|
      invariant 0 <= i <= |messages|
      invariant EncodeEntries(messages[..i]) == Some(output)
    {
      var entry := EncodeChatMessage(messages[i]);
      if entry.None? {
        assert EncodeEntries(messages[..i + 1]).None? by {
          assert messages[..i + 1][..i] == messages[..i];
        }
        EntriesFailurePersists(messages, i + 1);
        return None;
      }
      assert messages[..i + 1][..i] == messages[..i];
      output := output + [entry.value];
      i := i + 1;
    }
    assert messages[..i] == messages;
    r := Some(Array(output));
  }

  /** Once a prefix fails to encode, the whole list fails. */
  lemma {:induction false} EntriesFailurePersists(messages: seq<ChatMessage>, k: nat)
    requires k <= |messages|
    requires EncodeEntries(messages[..k]).None?
    ensures EncodeEntries(messages).None?
    decreases |messages| - k
  {
    if k < |messages| {
      assert messages[..k + 1][..k] == messages[..k];
      EntriesFailurePersists(messages, k + 1);
    } else {
      assert messages[..k] == messages;
    }
  }

  /**
   * DECODER(RECEIVE_HISTORY): clears the target list, then decodes the array
   * entries one by one and appends them.  The result does not depend on what
   * the target held before.
   */
  method DecodeReceiveHistory(input: DataNode, target: seq<ChatMessage>) returns (r: Option<seq<ChatMessage>>)
    ensures r.Some? <==> Decode(RECEIVE_HISTORY, input).Some?
    ensures r.Some? ==> Decode(RECEIVE_HISTORY, input) == Some(ReceiveHistory(r.value))
  {
    var messages: seq<ChatMessage> := target;
    messages := [];
    if !input.Array? {
      return None;
    }
    var items := input.items;
    var i := 0;
    while i < |items|
      invariant 0 <= i <= |items|
      invariant DecodeEntries(items[..i]) == Some(messages)
    {
      var temp := DecodeChatMessage(items[i]);
      assert items[..i + 1][..i] == items[..i];
      if temp.None? {
        DecodeFailurePersists(items, i + 1);
        return None;
      }
      messages := messages + [temp.value];
      i := i + 1;
    }
    assert items[..i] == items;
    r := Some(messages);
  }

  /** Once a prefix fails to decode, the whole array fails. */
  lemma {:induction false} DecodeFailurePersists(items: seq<DataNode>, k: nat)
    requires k <= |items|
    requires DecodeEntries(items[..k]).None?
    ensures DecodeEntries(items).None?
    decreases |items| - k
  {
    if k < |items| {
      assert items[..k + 1][..k] == items[..k];
      DecodeFailurePersists(items, k + 1);
    } else {
      assert items[..k] == items;
    }
  }

  /** `network::encode(message)`, with the RECEIVE_HISTORY loop run as written. */
  method EncodeMessage(m: Message) returns (r: Option<DataNode>)
    ensures r == Encode(m)
  {
    if m.ReceiveHistory? {
      r := EncodeReceiveHistory(m.messages);
    } else {
      r := Encode(m);
    }
  }

  /** `network::decode(payload, &message)` into a fresh message of kind `t`. */
  method DecodeMessage(t: MessageType, node: DataNode) returns (r: Option<Message>)
    ensures r == Decode(t, node)
  {
    if t == RECEIVE_HISTORY {
      var messages := DecodeReceiveHistory(node, []);
      r := if messages.Some? then Some(ReceiveHistory(messages.value)) else None;
    } else {
      r := Decode(t, node);
    }
  }

  // ---------------------------------------------------------------------------
  // Properties of the structured form

  /** A ChatMessage the structured form carries exactly: a declared category, and no sender name on a notice. */
  predicate StructuredChatMessage(m: ChatMessage)
  {
    m.category == CHAT_MESSAGE || (m.category == NOTICE && m.senderName == [])
  }

  predicate StructuredMessage(m: Message)
  {
    match m
    case ReceiveMessage(chat) => StructuredChatMessage(chat)
    case ReceiveHistory(messages) => forall i :: 0 <= i < |messages| ==> StructuredChatMessage(messages[i])
    case _ => true
  }

  /**
   * The encoded document has a "sender_name" key exactly when the category is
   * CHAT_MESSAGE, and its "category" value is the enumerator's name; only an
   * undeclared category fails to encode.
   */
  lemma ChatMessageDocument(m: ChatMessage)
    ensures EncodeChatMessage(m).Some? <==> !m.category.Undeclared?
    ensures EncodeChatMessage(m).Some? ==>
      var node := EncodeChatMessage(m).value;
      && node.Object?
      && (Str("sender_name") in node.fields <==> m.category == CHAT_MESSAGE)
      && StringField(node, Str("category")) ==
           Some(if m.category == CHAT_MESSAGE then Str("CHAT_MESSAGE") else Str("NOTICE"))
      && StringField(node, Str("text")) == Some(m.text)
      && Int64Field(node, Str("message_id")) == Some(ToInt64(m.messageId))
  {
  }

  /** Decoding fails on every category name other than the two enumerators. */
  lemma DecodeRejectsUnknownCategory(node: DataNode, into: ChatMessage, name: Bytes)
    requires StringField(node, Str("category")) == Some(name)
    requires name != Str("CHAT_MESSAGE") && name != Str("NOTICE")
    ensures DecodeChatMessageInto(node, into).None?
  {
  }

  /** A CHAT_MESSAGE document without a string "sender_name" is a decode error. */
  lemma DecodeRequiresSenderForChat(node: DataNode, into: ChatMessage)
    requires StringField(node, Str("category")) == Some(Str("CHAT_MESSAGE"))
    requires StringField(node, Str("sender_name")).None?
    ensures DecodeChatMessageInto(node, into).None?
  {
  }

  /** A NOTICE document's "sender_name", present or not, never reaches the decoded message. */
  lemma DecodeNoticeIgnoresSender(node: DataNode, into: ChatMessage)
    requires StringField(node, Str("category")) == Some(Str("NOTICE"))
    ensures DecodeChatMessageInto(node, into).Some? ==> DecodeChatMessageInto(node, into).value.senderName == into.senderName
  {
    assert Str("NOTICE") != Str("CHAT_MESSAGE");
  }

  /**
   * Encoding then decoding into `into` restores every field, except that a
   * NOTICE gets `into`'s sender name back instead of its own.
   */
  lemma ChatMessageRoundTrip(m: ChatMessage, into: ChatMessage)
    requires !m.category.Undeclared?
    ensures DecodeChatMessageInto(EncodeChatMessage(m).value, into) ==
      Some(if m.category == CHAT_MESSAGE then m else m.(senderName := into.senderName))
  {
    CastRoundTrip(m.messageId);
    assert Str("NOTICE") != Str("CHAT_MESSAGE");
  }

  lemma {:induction false} EntriesRoundTrip(messages: seq<ChatMessage>)
    requires forall i :: 0 <= i < |messages| ==> StructuredChatMessage(messages[i])
    ensures EncodeEntries(messages).Some?
    ensures DecodeEntries(EncodeEntries(messages).value) == Some(messages)
  {
    if messages != [] {
      var init, last := messages[..|messages| - 1], messages[|messages| - 1];
      EntriesRoundTrip(init);
      ChatMessageRoundTrip(last, DefaultChatMessage);
      var items := EncodeEntries(messages).value;
      assert items[..|items| - 1] == EncodeEntries(init).value;
      assert messages == init + [last];
    }
  }

  /** `decode(encode(m)) == m` for every message the structured form carries exactly. */
  lemma StructuredRoundTrip(m: Message)
    requires StructuredMessage(m)
    ensures Encode(m).Some?
    ensures Decode(TypeOf(m), Encode(m).value) == Some(m)
  {
    match m
    case ReceiveMessage(chat) => ChatMessageRoundTrip(chat, DefaultChatMessage);
    case RequestHistory(start, count) => CastRoundTrip(start); CastRoundTrip(count);
    case ReceiveHistory(messages) => EntriesRoundTrip(messages);
    case _ =>
  }

  /** A notice whose sender name is not empty comes back with an empty one. */
  lemma NoticeSenderNotCarried(m: ChatMessage)
    requires m.category == NOTICE
    ensures Decode(RECEIVE_MESSAGE, EncodeChatMessage(m).value) == Some(ReceiveMessage(m.(senderName := [])))
  {
    ChatMessageRoundTrip(m, DefaultChatMessage);
  }
}

=== FILE: wrappers.dfy ===
/** The optional value used for every operation of the chat protocol that can fail. */
module Wrappers {

  datatype Option<+T> = None | Some(value: T) {

    predicate IsFailure() {
      None?
    }

    function PropagateFailure<U>(): Option<U>
      requires None?
    {
      None
    }

    function Extract(): T
      requires Some?
    {
      value
    }
  }
}
